=== FILE: README.md ===
# Chat client session and state machine — a Dafny model

This project models the client-side core of a real-time chat client. It has
three parts:

- the **socket service**, a singleton that owns the one socket.io connection;
- the **chat store** and **auth store**, two Redux slices;
- the small decision procedures around them: the `useChat` hook, the HTTP
  client's token refresh, the chat window's call handling and the image
  picker's validation.

Each part is a set of pure transitions over immutable records:

- The socket service state (`SocketService.Service`) holds five things: the
  socket (absent, held but not connected, or connected), the reconnect
  attempt counter, the call-handler registry (`map<string, HandlerId>`),
  the chat store, and the current user's id from the auth store, which the
  self-echo filter reads when a message arrives.
- Each transport event (`Deliver`) and each API call returns a `Step`. A
  `Step` is the new state plus a log of effects: sockets opened or closed,
  reconnects requested, retries scheduled with their delays, payloads
  emitted, and handlers invoked.
- Browser storage is a value passed in and returned. Session storage is a map
  from key to the record stored under it. Local storage is a `TokenStore`
  pair.
- Clocks, HTTP answers and timers are parameters: the refresh outcome, the
  status codes, the message id and timestamp.

Modules follow the source files:

| module | source |
|---|---|
| `Common` | JavaScript string semantics used by the source (`includes`, `trim`, `\s`, the `i` flag) |
| `ChatTypes`, `UserTypes` | `src/types/chat.ts`, `src/types/user.ts` |
| `ChatSlice` | `src/redux/slices/chatSlice.ts` |
| `AuthSlice` | `src/redux/slices/authSlice.ts` |
| `AuthService` | `src/services/authService.ts` |
| `SocketService`, `SocketRuns` | `src/services/socketService.ts` (transitions; properties over event sequences) |
| `UseChat` | `src/customHooks/useChat.ts` |
| `ChatWindow` | `src/components/Chat/ChatWindow.tsx` |
| `ImageUpload` | `src/components/custom/ImageUpload.tsx` |

Behaviours of the code that the model keeps:

- **Token refresh on reconnect.** The socket service never refreshes the
  token when it reconnects: every reconnect reuses the credential the
  socket was opened with. A call emit carries no timestamp.
- **Connection guards.** `sendMessage` checks only that a socket is held,
  not that it is connected. Every other intent requires a connected socket.
- **Disconnect without a socket** changes nothing, and that includes the
  handler registry. Handlers registered before the first `connect` survive
  such a call (`SocketRuns.DisconnectSilencesHandlers` states the guarantee
  only for a held socket).
- **Lost profile updates.** `updateUser.fulfilled` stores the merged user
  under "user", but restore reads only "auth". A reload therefore brings back
  the user stored at login (`AuthSlice.RestoreIgnoresProfileUpdate`).
- **Refresh and retry.** The refresh call uses plain axios, so a failing
  refresh cannot re-enter the interceptor. The retried request does go
  through the intercepted instance. It is already marked `_retry`, so a
  second 401 is rejected without another refresh (`AuthService.Send`).
- **Storage through the interceptor.** Login, signup, logout and account
  deletion all go through the intercepted instance. A 401 on any of them can
  therefore replace both tokens with a refreshed pair or remove both, even
  when the call itself is finally rejected (`AuthService.RejectedCallStorage`).

## Model

| member | source | states |
|---|---|---|
| `SocketService.Fresh` | src/services/socketService.ts:13-17 | a new service holds no socket, zero attempts and no handlers |
| `SocketService.StripBearer` | src/services/socketService.ts:39 | the result is a suffix of the token; when anything is removed, at least "Bearer" and one white-space character go, and the rest does not start with white space |
| `SocketService.FormatToken` | src/services/socketService.ts:39-40 | the handshake credential always starts with "Bearer " |
| `SocketService.FormatTokenStripsPrefix` | src/services/socketService.ts:39 | a leading "Bearer" in any letter case, followed by white space, is removed together with all of that white space before "Bearer " is prefixed |
| `SocketService.FormatTokenKeepsUnprefixed` | src/services/socketService.ts:39-40 | a token that does not start with "Bearer" (any case) followed by white space is sent whole behind "Bearer " |
| `SocketService.FormatTokenIdempotentIff` | src/services/socketService.ts:39-40 | reformatting a formatted credential gives the same string if and only if its body does not start with white space |
| `SocketService.FormatTokenSettles` | src/services/socketService.ts:39-40 | formatting twice reaches a fixed point |
| `SocketService.Connect` | src/services/socketService.ts:28-52 | an empty token or a connected socket opens nothing and changes nothing; otherwise exactly one socket is opened, not yet connected, with the formatted token as credential, and attempts, handlers and store are kept |
| `SocketService.Disconnect` | src/services/socketService.ts:148-155 | with a socket: it is closed and dropped, the handler map is emptied and attempts become 0; without one: no change |
| `SocketService.RegisterCallHandler` | src/services/socketService.ts:236-241 | the peer's entry is overwritten with the new handler; every other entry is unchanged |
| `SocketService.UnregisterCallHandler` | src/services/socketService.ts:243-245 | only the peer's entry is removed |
| `SocketService.OnConnect` | src/services/socketService.ts:57-60 | a "connect" event marks the socket connected and resets attempts to 0 |
| `SocketService.OnDisconnect` | src/services/socketService.ts:62-67 | an immediate reconnect is requested if and only if the reason is exactly "io server disconnect" |
| `SocketService.OnConnectError` | src/services/socketService.ts:69-90 | an "Authentication error" message sets attempts to 5 with no retry; any other error adds one attempt and schedules one retry of 1000 × attempts ms exactly when the new count is at most 5 |
| `SocketService.OnIncomingMessage` | src/services/socketService.ts:96-106 | a message is appended unless its sender is the current user; with no current user it is always appended; only the message list changes |
| `SocketService.MarkAllOnline` | src/services/socketService.ts:116-120 | every listed user is set online; every other key keeps its presence and value |
| `SocketService.OnCall` | src/services/socketService.ts:136-141 | only the handler keyed by the caller is invoked, and nothing is invoked when that key is absent |
| `SocketService.Deliver` | src/services/socketService.ts:54-146 | without a socket an event has no effect; no inbound event changes the handler registry or the current user |
| `SocketService.DeliverRoutes` | src/services/socketService.ts:54-146 | each event kind reaches its own handler: connect, disconnect, connect_error, both message events and call go to their transitions; typing and onlineStatus write only their map entry; onlineUsers sets every listed user online and touches nothing else; messagesLoaded replaces only the list; error, userJoined and userLeft change nothing |
| `SocketService.EmitIfConnected` | src/services/socketService.ts:173-180 | the common guard: emits the payload if and only if connected, and never changes state |
| `SocketService.SendMessage` | src/services/socketService.ts:157-171 | with a socket, connected or not: appends the message locally and then emits it with receiver and group mapped to receiverId and groupId; with no socket: nothing |
| `SocketService.SendTypingStatus` | src/services/socketService.ts:173-180 | emits {isTyping, chatId} only while connected |
| `SocketService.JoinGroup` | src/services/socketService.ts:182-189 | emits the join only while connected |
| `SocketService.LeaveGroup` | src/services/socketService.ts:191-198 | emits the leave only while connected |
| `SocketService.StartCall` | src/services/socketService.ts:200-216 | emits a "ringing" call only while connected |
| `SocketService.EndCall` | src/services/socketService.ts:218-234 | emits an "ended" call only while connected |
| `SocketService.LoadMessages` | src/services/socketService.ts:289-296 | emits the history request only while connected |
| `SocketService.OfflineIntentsAreDropped` | src/services/socketService.ts:157-234 | when not connected, every intent emits nothing and changes nothing, except `sendMessage` on a held socket |
| `SocketService.CallIntentStatuses` | src/services/socketService.ts:200-234 | start emits status ringing, end emits ended, with the given targets |
| `SocketRuns.Run` | src/services/socketService.ts:54-146 | over any event sequence, socket presence, handlers and current user are preserved |
| `SocketRuns.TransientErrorsBackOffLinearly` | src/services/socketService.ts:79-89 | after k transient errors starting from attempt count a, the count is a + k and the retries are exactly 1000·(a+1), 1000·(a+2), … up to attempt 5 |
| `SocketRuns.ExhaustedCounterNeverRetries` | src/services/socketService.ts:73-90 | once attempts reach 5, events other than "connect" schedule no retry |
| `SocketRuns.AuthErrorEndsRetries` | src/services/socketService.ts:73-76 | after an authentication error, no retry is scheduled until a successful "connect" |
| `SocketRuns.FiveRetriesThenNone` | src/services/socketService.ts:79-89 | five generic errors schedule retries at 1, 2, 3, 4 and 5 s; a sixth schedules none |
| `SocketRuns.ForeignMessagesAppendInOrder` | src/services/socketService.ts:96-106 | messages from other users are appended in delivery order, without de-duplication; nothing else in the service changes and nothing is emitted |
| `SocketRuns.OnlineUsersIsStatusEvents` | src/services/socketService.ts:112-120 | an onlineUsers event has the same result as one onlineStatus(user, true) event per listed user, in order |
| `SocketRuns.HistoryThenLiveMessages` | src/services/socketService.ts:96-106 | history loaded and then foreign messages delivered gives the history followed by those messages, with nothing emitted |
| `SocketRuns.SelfEchoesChangeNothing` | src/services/socketService.ts:96-106 | echoes of the current user's own messages leave the service unchanged |
| `SocketRuns.RedeliveryIsNotDeduplicated` | src/services/socketService.ts:96-100 | the same foreign message delivered twice is listed twice |
| `SocketRuns.CallReachesOnlyTheCallersHandler` | src/services/socketService.ts:136-141 | a call event invokes at most one handler, the one registered under its `from` |
| `SocketRuns.DisconnectSilencesHandlers` | src/services/socketService.ts:148-155 | after disconnect, stray events have no effect; after disconnecting a held socket, a newly opened socket invokes no old handler |
| `SocketRuns.DisconnectIdempotent` | src/services/socketService.ts:148-155 | a second disconnect changes nothing |
| `SocketRuns.SecondConnectOpensNothing` | src/services/socketService.ts:34-37 | once connected, a second connect opens no socket |
| `ChatSlice.InitialState` | src/redux/slices/chatSlice.ts:4-14 | the store starts empty: no messages, empty typing and online maps, no chat or call, upload idle, not loading, no error |
| `ChatSlice.SetMessages` | src/redux/slices/chatSlice.ts:20-22 | the list becomes exactly the payload; nothing else changes |
| `ChatSlice.AddMessage` | src/redux/slices/chatSlice.ts:23-25 | the length grows by one, the old list is a prefix, and the new message is last |
| `ChatSlice.SetTypingStatus` | src/redux/slices/chatSlice.ts:26-31 | only the given key is written; other keys keep presence and value |
| `ChatSlice.SetOnlineStatus` | src/redux/slices/chatSlice.ts:32-37 | only the given key is written; other keys keep presence and value |
| `ChatSlice.SetActiveChat` | src/redux/slices/chatSlice.ts:38-40 | sets only the active chat |
| `ChatSlice.SetUploadStatus` | src/redux/slices/chatSlice.ts:41-46 | sets only the upload status |
| `ChatSlice.SetUploadError` | src/redux/slices/chatSlice.ts:47-49 | sets only the upload error |
| `ChatSlice.SetLoading` | src/redux/slices/chatSlice.ts:50-52 | sets only the loading flag |
| `ChatSlice.SetError` | src/redux/slices/chatSlice.ts:53-55 | sets only the error |
| `ChatSlice.SetActiveCall` | src/redux/slices/chatSlice.ts:56-58 | sets only the active call |
| `ChatSlice.UpdateCallStatus` | src/redux/slices/chatSlice.ts:59-66 | with a call: only its status changes; with none: no change at all |
| `ChatSlice.AddAllAppends` | src/redux/slices/chatSlice.ts:23-25 | a run of appends equals appending the whole run, in order |
| `ChatSlice.TypingLastWriteWins` | src/redux/slices/chatSlice.ts:26-31 | two writes to one key keep the second |
| `ChatSlice.OnlineWrites` | src/redux/slices/chatSlice.ts:32-37 | last write wins per key, and writes to different keys commute |
| `ChatSlice.CallStatusLastWriteWins` | src/redux/slices/chatSlice.ts:59-66 | two status updates keep the second |
| `AuthSlice.Restore` | src/redux/slices/authSlice.ts:23-46 | authenticated with the stored token and user if and only if "auth" holds a non-empty token and a user; otherwise both are null; users is always empty, loading false and error null |
| `AuthSlice.Persist` | src/redux/slices/authSlice.ts:165-172 | writes the authenticated triple under "auth" and leaves other keys alone |
| `AuthSlice.SetAuth` | src/redux/slices/authSlice.ts:161-173 | sets authenticated, token and user, and persists exactly that triple; nothing else changes |
| `AuthSlice.Logout` | src/redux/slices/authSlice.ts:174-180 | clears the session fields and users, removes "auth", and keeps loading and error |
| `AuthSlice.SetUsers` | src/redux/slices/authSlice.ts:181-183 | sets only the users |
| `AuthSlice.ClearError` | src/redux/slices/authSlice.ts:184-186 | clears only the error |
| `AuthSlice.SetLoading` | src/redux/slices/authSlice.ts:187-189 | sets only loading |
| `AuthSlice.SetError` | src/redux/slices/authSlice.ts:190-192 | sets only the error |
| `AuthSlice.LoginSuccess` | src/redux/slices/authSlice.ts:193-197 | sets authenticated and user, clears the error, and leaves the token alone |
| `AuthSlice.LogoutSuccess` | src/redux/slices/authSlice.ts:198-202 | clears authenticated, user and error, and leaves the token alone |
| `AuthSlice.UpdateUserSuccess` | src/redux/slices/authSlice.ts:203-205 | sets only the user |
| `AuthSlice.Pending` | src/redux/slices/authSlice.ts:209-212 | loading true and error null, nothing else |
| `AuthSlice.Rejected` | src/redux/slices/authSlice.ts:227-230 | loading false and error set to the payload, nothing else |
| `AuthSlice.Reduce` | src/redux/slices/authSlice.ts:157-296 | only setAuth, logout, signup/login fulfilled and updateUser fulfilled write storage; every thunk's pending and rejected case ends in the same loading flag and error |
| `AuthSlice.ReduceRoutes` | src/redux/slices/authSlice.ts:157-296 | each action reaches its own case: every synchronous reducer and every pending, rejected and fulfilled case writes exactly its own fields, and storage is left alone except by setAuth, logout, the granted cases and updateUser fulfilled |
| `AuthSlice.MapLoginResponse` | src/redux/slices/authSlice.ts:81-86 | the access token becomes the store token; user and refresh token are passed through |
| `AuthSlice.Granted` | src/redux/slices/authSlice.ts:213-248 | signup and login fulfilled: loading false, authenticated, token and user from the response, all persisted under "auth"; error untouched |
| `AuthSlice.DeleteUserFulfilled` | src/redux/slices/authSlice.ts:257-259 | only loading changes |
| `AuthSlice.MergeUser` | src/redux/slices/authSlice.ts:271-275 | the merged user keeps the original id |
| `AuthSlice.MergeUserLaws` | src/redux/slices/authSlice.ts:271-275 | each of name, email, gender and profileImage wins when the patch carries it and is kept when it does not; the id never changes, merging is idempotent, and the empty patch changes nothing |
| `AuthSlice.UpdateUserFulfilled` | src/redux/slices/authSlice.ts:268-278 | merges into a present user and writes it under "user", never "auth"; a null user stays null and storage is untouched |
| `AuthSlice.GetAllUsersFulfilled` | src/redux/slices/authSlice.ts:287-290 | sets users and clears loading |
| `AuthSlice.OnlySessionActionsTouchToken` | src/redux/slices/authSlice.ts:157-296 | apart from setAuth, logout and signup/login fulfilled, no action changes the token or the "auth" entry |
| `AuthSlice.RestoreAfterGranted` | src/redux/slices/authSlice.ts:213-248 | restoring after a granted session gives back that session when the token is non-empty, and an unauthenticated state when it is empty |
| `AuthSlice.RestoreAfterSetAuth` | src/redux/slices/authSlice.ts:161-173 | setAuth and then restore round-trips, for a non-empty token |
| `AuthSlice.RestoreAfterLogout` | src/redux/slices/authSlice.ts:174-180 | a reload after logout is unauthenticated |
| `AuthSlice.LoginKeepsAccessToken` | src/redux/slices/authSlice.ts:81-86 | the login's access token is the store token, before and after a reload |
| `AuthSlice.RestoreIgnoresProfileUpdate` | src/redux/slices/authSlice.ts:268-278 | a profile update does not change what a reload restores |
| `AuthService.Authorize` | src/services/authService.ts:13-20 | adds `Bearer <accessToken>` if and only if a non-empty access token is stored |
| `AuthService.OnResponseError` | src/services/authService.ts:26-66 | only a 401 on an unmarked request refreshes; with no refresh token: redirect and reject without a refresh call; on success: both tokens replaced and a marked retry with the new bearer; on failure: both tokens removed and a redirect; anything else rejected unchanged |
| `AuthService.Send` | src/services/authService.ts:13-66 | whatever the server answers, a request causes at most one refresh and at most two attempts, and one already marked `_retry` causes no refresh and a single attempt |
| `AuthService.RetryCarriesRefreshedToken` | src/services/authService.ts:48-55 | after a 401 and a successful refresh, the second attempt carries the new bearer, and on success storage holds the new pair |
| `AuthService.OtherFailuresPassThrough` | src/services/authService.ts:64 | any other failure is rejected with its status, storage untouched, with no refresh or redirect |
| `AuthService.SendStorageOutcomes` | src/services/authService.ts:26-66 | after a request, storage is unchanged, emptied, or the refreshed pair, and it changes only after a first 401 on an unmarked request with a refresh token stored |
| `AuthService.RetriedRequestKeepsStorage` | src/services/authService.ts:31-64 | a request already marked `_retry` never changes storage or redirects |
| `AuthService.Call` | src/services/authService.ts:6-11 | a call of the API module sends at most two attempts with at most one refresh; a first 2xx answer resolves with storage unchanged |
| `AuthService.StoreGrantedTokens` | src/services/authService.ts:68-97 | a resolved login or signup stores both granted tokens; a rejected one leaves whatever the response interceptor left; the exchange is otherwise the intercepted call's |
| `AuthService.LogoutEffect` | src/services/authService.ts:99-111 | the server is called if and only if a refresh token is stored, and both tokens are removed whatever the server answers |
| `AuthService.DeleteUserEffect` | src/services/authService.ts:118-122 | a resolved delete removes both tokens; a rejected one leaves whatever the response interceptor left |
| `AuthService.StoredTokensAuthorizeNextRequest` | src/services/authService.ts:13-122 | after a granted login the next request carries the new bearer; after logout, or a resolved delete, the interceptor adds no Authorization header (a fresh request carries none) |
| `AuthService.RejectedCallStorage` | src/services/authService.ts:26-122 | a rejected login, signup or delete leaves storage alone unless its first answer was a 401 with a refresh token stored; then a failed refresh empties storage and redirects to the login page |
| `UseChat.BuildMessage` | src/customHooks/useChat.ts:28-44 | the sender is the current user's id and email; content, type and fileUrl are as given; exactly one of receiver or group is set, by chat kind |
| `UseChat.SendChatMessage` | src/customHooks/useChat.ts:21-47 | nothing happens without a current user, an active chat and a held socket; otherwise the built message is appended once and emitted with its single target, and nothing else in the service or the chat store changes |
| `UseChat.SentMessageListedOnce` | src/customHooks/useChat.ts:21-47 | a sent message followed by the server's echo leaves it listed exactly once |
| `UseChat.LoadHistory` | src/customHooks/useChat.ts:11-19 | exactly one history request when a chat is active and the socket connected, none otherwise; a private chat requests (id, none) and a group chat (none, id) |
| `UseChat.SetTyping` | src/customHooks/useChat.ts:49-52 | exactly one typing emit for the active chat's id when a chat is active and the socket connected, none otherwise |
| `UseChat.StartChatCall` | src/customHooks/useChat.ts:54-61 | exactly one ringing emit when a chat is active and the socket connected, none otherwise; it rings the peer or the group, never both |
| `ChatWindow.HandleIncomingCall` | src/components/Chat/ChatWindow.tsx:53-64 | "ringing" opens the dialog with the call; "ended" clears dialog and banner; "accepted" and "rejected" change nothing |
| `ChatWindow.RegisterFor` | src/components/Chat/ChatWindow.tsx:66-68 | registers the window's handler under the chat id when the id is non-empty |
| `ChatWindow.UnregisterFor` | src/components/Chat/ChatWindow.tsx:70-74 | removes the entry under that same chat id |
| `ChatWindow.SelectChat` | src/components/Chat/ChatWindow.tsx:44-74 | changing chat clears the banner, moves the handler from the old id to the new one, keeps every other entry, and requests the new chat's history; the socket, the reconnect counter and the current user are untouched |
| `ChatWindow.HandleCall` | src/components/Chat/ChatWindow.tsx:106-114 | a no-op without an active chat; otherwise rings the chat and shows a banner of the chat's kind |
| `ChatWindow.AnswerCall` | src/components/Chat/ChatWindow.tsx:127-136 | needs a dialog and a chat; rings the caller back privately, closes the dialog and shows a private banner |
| `ChatWindow.RejectCall` | src/components/Chat/ChatWindow.tsx:138-142 | ends the call to the caller and closes the dialog; the banner is untouched |
| `ChatWindow.EndCallButton` | src/components/Chat/ChatWindow.tsx:229-236 | with a banner and an active chat: hides the banner and, exactly when connected, emits one "ended" call of the banner's kind towards the peer or the group, by chat kind; otherwise nothing |
| `ChatWindow.HandleSubmit` | src/components/Chat/ChatWindow.tsx:77-82 | sends the untrimmed input as a text message only when it is not all white space and a chat is active, then clears the input |
| `ChatWindow.CallFromSelectedChatReachesWindow` | src/components/Chat/ChatWindow.tsx:52-75 | after a chat is selected, a ringing call from its id opens the dialog, and an ended call from it clears the dialog and the banner |
| `ChatWindow.UnregisteredCallerIsIgnored` | src/components/Chat/ChatWindow.tsx:52-75 | a call from a peer with no registered handler leaves the window unchanged |
| `Common.TrimEmptyIff` | src/components/Chat/ChatWindow.tsx:79 | the trimmed input is empty if and only if every character is JavaScript white space |
| `ImageUpload.Validate` | src/components/custom/ImageUpload.tsx:22-29 | a file is accepted if and only if its size is at most maxSize and its type contains "image"; oversize reports the size error before any type error |
| `ImageUpload.HandleFileChange` | src/components/custom/ImageUpload.tsx:18-32 | no file: no change; rejected: the error is shown and the uploading flag is untouched; accepted: uploading is set, the error cleared, and reading starts |
| `ImageUpload.SizeLimitIsInclusive` | src/components/custom/ImageUpload.tsx:22-25 | a size equal to maxSize passes the size check; one byte more fails it |
| `ImageUpload.SizeCheckedBeforeType` | src/components/custom/ImageUpload.tsx:22-29 | an oversize non-image reports the size error |
| `ImageUpload.TypeCheckIsSubstringMatch` | src/components/custom/ImageUpload.tsx:26-29 | a type passes if and only if it splits as some prefix, then "image", then some suffix; "image/png" and "application/x-image-data" pass and "text/plain" fails |
| `ImageUpload.DefaultLimit` | src/components/custom/ImageUpload.tsx:12 | a worked instance rather than a property: the default limit is 5 242 880 bytes, and a JPEG of exactly that size is accepted |

`SocketService.IsConnected` (src/services/socketService.ts:285-287) is the
`socket?.connected` test shared by every guard; it has no contract of its
own and is stated through `SocketService.EmitIfConnected` and
`SocketService.Connect`.

## Left out

- The socket.io transport itself: the `io()` options, its built-in automatic
  reconnection, the 20 s timeout, and real `setTimeout` timing. Retries and
  reconnect requests appear only as effects with their delays.
- Orphaned sockets. `connect` on a held socket that is not connected replaces
  it without closing it. In the source the old socket keeps its listeners,
  which still write the shared counter and store. The model delivers events
  only to the held socket.
- The listener-attaching helpers `onMessage`, `onTyping`, `onUserOnline`,
  `onUserOffline`, `onCall` and `removeAllListeners`. They are thin wrappers
  around `socket.on`.
- Console logging, and the "error", "userJoined" and "userLeft" events, which
  only log. They are modelled as no-ops.
- All HTTP bodies: the thunks' axios calls, the chat thunks, the upload
  `fetch` and the refresh POST. Their outcomes are inputs, and only their
  effects on state are modelled.
- `JSON.parse` of the stored "auth" value (it can throw) and the storage APIs.
  Storage holds typed records, not JSON text.
- The `createdAt`/`updatedAt` fields of a user. The shape of `ActiveCall`
  beyond its status is assumed, because its declaration is not part of this
  model.
- The typing timer, rendering, scrolling, focus, and the `FileReader` read
  with its completion and error callbacks.
- The hook's default `type = "text"` in `sendMessage`. Its one caller,
  `ChatWindow.HandleSubmit`, passes `Text` explicitly.
- `ImageUpload.Validate`: `maxSize` and file sizes are natural numbers of
  bytes, whereas the source's `maxSize` is a JavaScript number, so a
  fractional or negative limit is not modelled.
- The floating-point MB figure in the image size message. The error carries
  `maxSize` instead.
- Page components, route guards, `toast.ts` and `store.ts`: presentation and
  wiring.
- The mismatch between the named import `SocketService` and the default
  export. This is a module-wiring problem, not logic: the model calls the
  single instance.
- React effect scheduling. `ChatWindow.SelectChat` runs, in declaration order,
  the effects keyed on the active chat, once per change of the active chat.
- `AuthSlice.MergeUser`: a patch field is either absent or a value. The
  source's object spread can also copy an explicit JSON `null` (clearing
  that field) and response fields that are not part of the patch; neither
  is modelled.
- Concurrent refreshes. Requests are modelled one at a time. In the source,
  several requests refused with 401 at once each call /auth/refresh-token and
  each overwrite both tokens, since there is no single-flight guard
  (src/services/authService.ts:31-61).
- Handler bodies as closures. A handler is an opaque `HandlerId`. Only the
  chat window's handler is given a meaning (`ChatWindow.ApplyInvocations`).

=== FILE: auth_service.dfy ===
/** The HTTP client's token handling: the request interceptor that attaches
    the bearer header, the response interceptor's one-shot refresh on 401,
    and the token-storage effects of login, signup, logout and account
    deletion (src/services/authService.ts). Local storage is the pair of
    entries "accessToken" and "refreshToken"; every HTTP outcome is an input. */
module AuthService {
  import opened Common
  import opened UserTypes

  /** The two local-storage entries (`None` when the key is absent). */
  datatype TokenStore = TokenStore(accessToken: Option<string>, refreshToken: Option<string>)

  /** An outgoing request: its `_retry` mark and its Authorization header. */
  datatype Request = Request(retried: bool, authorization: Option<string>)

  /** A stored entry is truthy when present and not the empty string. */
  predicate Truthy(v: Option<string>)
  {
    v.Some? && v.value != ""
  }

  /** The request interceptor: attach `Bearer <accessToken>` exactly when an
      access token is stored; otherwise the request goes out as it is. */
  function Authorize(store: TokenStore, req: Request): (r: Request)
    ensures r.retried == req.retried
    ensures Truthy(store.accessToken) ==> r.authorization == Some("Bearer " + store.accessToken.value)
    ensures !Truthy(store.accessToken) ==> r == req
  {
    if Truthy(store.accessToken) then req.(authorization := Some("Bearer " + store.accessToken.value))
    else req
  }

  /** A failed request as the response interceptor sees it: the response
      status (none for a network error) and the request that was sent. */
  datatype HttpError = HttpError(status: Option<int>, request: Request)

  /** What the refresh-token endpoint answers, if it is called. */
  datatype RefreshResult = Refreshed(accessToken: string, refreshToken: string) | RefreshFailed

  /** How the interceptor settles the failed request. */
  datatype Verdict =
    | RejectOriginal            // reject with the original error
    | RejectRefreshError        // reject with the refresh call's error
    | RetryWith(request: Request)

  datatype Interception = Interception(
    store: TokenStore,
    verdict: Verdict,
    refreshCalled: bool,
    redirectToLogin: bool)

  /** The request qualifies for a refresh: a 401 on a request not yet marked. */
  predicate RefreshEligible(err: HttpError)
  {
    err.status == Some(401) && !err.request.retried
  }

  /** The response interceptor's error path. */
  function OnResponseError(store: TokenStore, err: HttpError, refresh: RefreshResult): (r: Interception)
    ensures !RefreshEligible(err) ==> r == Interception(store, RejectOriginal, false, false)
    ensures RefreshEligible(err) && !Truthy(store.refreshToken) ==>
      r == Interception(store, RejectOriginal, false, true)
    ensures r.refreshCalled <==> RefreshEligible(err) && Truthy(store.refreshToken)
    ensures r.refreshCalled && refresh.Refreshed? ==>
      && r.store == TokenStore(Some(refresh.accessToken), Some(refresh.refreshToken))
      && r.verdict == RetryWith(Request(true, Some("Bearer " + refresh.accessToken)))
      && !r.redirectToLogin
    ensures r.refreshCalled && refresh.RefreshFailed? ==>
      r == Interception(TokenStore(None, None), RejectRefreshError, true, true)
  {
    if !RefreshEligible(err) then Interception(store, RejectOriginal, false, false)
    else
      var marked := err.request.(retried := true);
      if !Truthy(store.refreshToken) then Interception(store, RejectOriginal, false, true)
      else
        match refresh
        case Refreshed(access, newRefresh) =>
          Interception(TokenStore(Some(access), Some(newRefresh)),
                       RetryWith(marked.(authorization := Some("Bearer " + access))), true, false)
        case RefreshFailed =>
          Interception(TokenStore(None, None), RejectRefreshError, true, true)
  }

  /** The server's answer to one attempt: a status code, or no response. */
  datatype Reply = Status(code: int) | NoResponse

  /** axios's default rule: a 2xx status resolves, anything else rejects. */
  predicate IsSuccess(reply: Reply)
  {
    reply.Status? && 200 <= reply.code < 300
  }

  datatype Outcome = Resolved(code: int) | Failed(status: Option<int>) | RefreshError | Unanswered

  /** One request through the intercepted client: the attempts actually
      sent, how it settled, the storage left behind, and the refresh calls
      and redirects it caused. */
  datatype Exchange = Exchange(
    store: TokenStore,
    outcome: Outcome,
    sent: seq<Request>,
    refreshCalls: nat,
    redirected: bool)

  /** Sends `req`, the server answering successive attempts with `replies`;
      a refresh, if one is made, answers `refresh`. The retry goes through
      the intercepted instance again, so the request interceptor runs on it. */
  function Send(store: TokenStore, req: Request, replies: seq<Reply>, refresh: RefreshResult): (r: Exchange)
    ensures |r.sent| <= |replies|
    ensures r.refreshCalls <= 1 && |r.sent| <= 2
    ensures req.retried ==> r.refreshCalls == 0 && |r.sent| <= 1
    decreases |replies|
  {
    if replies == [] then Exchange(store, Unanswered, [], 0, false)
    else
      var sent := Authorize(store, req);
      if IsSuccess(replies[0]) then Exchange(store, Resolved(replies[0].code), [sent], 0, false)
      else
        var status := if replies[0].Status? then Some(replies[0].code) else None;
        var i := OnResponseError(store, HttpError(status, sent), refresh);
        match i.verdict
        case RetryWith(again) =>
          var rest := Send(i.store, again, replies[1..], refresh);
          Exchange(rest.store, rest.outcome, [sent] + rest.sent, rest.refreshCalls + 1, rest.redirected)
        case RejectOriginal =>
          Exchange(i.store, Failed(status), [sent], 0, i.redirectToLogin)
        case RejectRefreshError =>
          Exchange(i.store, RefreshError, [sent], 1, true)
  }

  /** When the first attempt is refused with 401, a refresh token is stored
      and the refresh succeeds, the second attempt carries the new bearer
      token and both stored tokens are the refreshed pair. */
  lemma RetryCarriesRefreshedToken(store: TokenStore, req: Request, replies: seq<Reply>, access: string, newRefresh: string)
    requires |replies| >= 2 && replies[0] == Status(401) && !req.retried
    requires Truthy(store.refreshToken)
    ensures var r := Send(store, req, replies, Refreshed(access, newRefresh));
      && |r.sent| == 2
      && r.sent[1].authorization == Some("Bearer " + access)
      && r.refreshCalls == 1
      && (IsSuccess(replies[1]) ==> r.store == TokenStore(Some(access), Some(newRefresh)) && r.outcome == Resolved(replies[1].code))
  {
  }

  /** Any failure other than a first 401 is rejected unchanged and leaves
      storage alone, without a refresh or a redirect. */
  lemma OtherFailuresPassThrough(store: TokenStore, req: Request, replies: seq<Reply>, refresh: RefreshResult)
    requires |replies| > 0 && !IsSuccess(replies[0])
    requires replies[0] != Status(401) || req.retried
    ensures var r := Send(store, req, replies, refresh);
      && r.store == store && r.refreshCalls == 0 && !r.redirected
      && r.outcome == Failed(if replies[0].Status? then Some(replies[0].code) else None)
  {
  }

  /** Storage is left as it was, or emptied, or holds the refreshed pair;
      and it changes only when the first attempt of an unmarked request is
      refused with 401 while a refresh token is stored. */
  lemma SendStorageOutcomes(store: TokenStore, req: Request, replies: seq<Reply>, refresh: RefreshResult)
    ensures var r := Send(store, req, replies, refresh);
      || r.store == store
      || r.store == TokenStore(None, None)
      || (refresh.Refreshed? && r.store == TokenStore(Some(refresh.accessToken), Some(refresh.refreshToken)))
    ensures var r := Send(store, req, replies, refresh);
      r.store != store ==>
        |replies| > 0 && replies[0] == Status(401) && !req.retried && Truthy(store.refreshToken)
  {
    if |replies| > 0 && !IsSuccess(replies[0]) {
      var sent := Authorize(store, req);
      var status := if replies[0].Status? then Some(replies[0].code) else None;
      var i := OnResponseError(store, HttpError(status, sent), refresh);
      if i.verdict.RetryWith? {
        RetriedRequestKeepsStorage(i.store, i.verdict.request, replies[1..], refresh);
      }
    }
  }

  /** A request already marked `_retry` never touches storage: it resolves
      or is rejected as it is. */
  lemma RetriedRequestKeepsStorage(store: TokenStore, req: Request, replies: seq<Reply>, refresh: RefreshResult)
    requires req.retried
    ensures Send(store, req, replies, refresh).store == store
    ensures !Send(store, req, replies, refresh).redirected
  {
    if |replies| > 0 && !IsSuccess(replies[0]) {
      OtherFailuresPassThrough(store, req, replies, refresh);
    }
  }

  /** A call of the API module as its functions make it: a fresh request
      through the intercepted instance. */
  function Call(store: TokenStore, replies: seq<Reply>, refresh: RefreshResult): (r: Exchange)
    ensures r.refreshCalls <= 1 && |r.sent| <= 2
    ensures |replies| > 0 && IsSuccess(replies[0]) ==> r.store == store && r.outcome == Resolved(replies[0].code)
  {
    Send(store, Request(false, None), replies, refresh)
  }

  /** `login` and `signup`: once the call resolves, both tokens of the
      response body are stored; if it is rejected, storage is whatever the
      response interceptor left. */
  function StoreGrantedTokens(store: TokenStore, replies: seq<Reply>, refresh: RefreshResult, granted: AuthResponse): (r: Exchange)
    ensures var call := Call(store, replies, refresh);
      && r.outcome == call.outcome && r.sent == call.sent
      && r.refreshCalls == call.refreshCalls && r.redirected == call.redirected
    ensures r.outcome.Resolved? ==> r.store == TokenStore(Some(granted.accessToken), Some(granted.refreshToken))
    ensures !r.outcome.Resolved? ==> r.store == Call(store, replies, refresh).store
  {
    var call := Call(store, replies, refresh);
    if call.outcome.Resolved? then call.(store := TokenStore(Some(granted.accessToken), Some(granted.refreshToken)))
    else call
  }

  /** What `logout` leaves behind: the storage, and the server call if one
      was made. */
  datatype LogoutResult = LogoutResult(store: TokenStore, call: Option<Exchange>)

  /** `logout`: tells the server only when a refresh token is stored (that
      call may itself refresh or redirect), and removes both tokens whatever
      the server answers. */
  function LogoutEffect(store: TokenStore, replies: seq<Reply>, refresh: RefreshResult): (r: LogoutResult)
    ensures r.store == TokenStore(None, None)
    ensures r.call.Some? <==> Truthy(store.refreshToken)
    ensures r.call.Some? ==> r.call.value == Call(store, replies, refresh)
  {
    LogoutResult(TokenStore(None, None),
                 if Truthy(store.refreshToken) then Some(Call(store, replies, refresh)) else None)
  }

  /** `deleteUser`: removes both tokens once the call resolves; if it is
      rejected, storage is whatever the response interceptor left. */
  function DeleteUserEffect(store: TokenStore, replies: seq<Reply>, refresh: RefreshResult): (r: Exchange)
    ensures var call := Call(store, replies, refresh);
      && r.outcome == call.outcome && r.sent == call.sent
      && r.refreshCalls == call.refreshCalls && r.redirected == call.redirected
    ensures r.outcome.Resolved? ==> r.store == TokenStore(None, None)
    ensures !r.outcome.Resolved? ==> r.store == Call(store, replies, refresh).store
  {
    var call := Call(store, replies, refresh);
    if call.outcome.Resolved? then call.(store := TokenStore(None, None)) else call
  }

  /** After a granted login or signup, the next request carries the new
      access token; after logout, or after the account is deleted, the
      request interceptor adds no Authorization header (a fresh request
      therefore carries none). */
  lemma StoredTokensAuthorizeNextRequest(store: TokenStore, replies: seq<Reply>, refresh: RefreshResult,
                                         granted: AuthResponse, next: Request)
    ensures StoreGrantedTokens(store, replies, refresh, granted).outcome.Resolved? && granted.accessToken != "" ==>
      Authorize(StoreGrantedTokens(store, replies, refresh, granted).store, next).authorization
        == Some("Bearer " + granted.accessToken)
    ensures Authorize(LogoutEffect(store, replies, refresh).store, next) == next
    ensures DeleteUserEffect(store, replies, refresh).outcome.Resolved? ==>
      Authorize(DeleteUserEffect(store, replies, refresh).store, next) == next
  {
  }

  /** A rejected login, signup or delete leaves storage alone unless its
      first answer is a 401 with a refresh token stored; then a failed
      refresh empties storage and sends the user to the login page. */
  lemma RejectedCallStorage(store: TokenStore, replies: seq<Reply>, refresh: RefreshResult, granted: AuthResponse)
    ensures var r := StoreGrantedTokens(store, replies, refresh, granted);
      !r.outcome.Resolved? && (replies == [] || replies[0] != Status(401) || !Truthy(store.refreshToken)) ==>
        r.store == store
    ensures var r := DeleteUserEffect(store, replies, refresh);
      !r.outcome.Resolved? && (replies == [] || replies[0] != Status(401) || !Truthy(store.refreshToken)) ==>
        r.store == store
    ensures |replies| > 0 && replies[0] == Status(401) && Truthy(store.refreshToken) && refresh.RefreshFailed? ==>
      && DeleteUserEffect(store, replies, refresh) == Exchange(TokenStore(None, None), RefreshError, [Authorize(store, Request(false, None))], 1, true)
      && StoreGrantedTokens(store, replies, refresh, granted).store == TokenStore(None, None)
  {
    SendStorageOutcomes(store, Request(false, None), replies, refresh);
  }
}

=== FILE: auth_slice.dfy ===
/** The auth store: session restore from browser session storage, the
    synchronous reducers and the state effects of the asynchronous thunks
    (src/redux/slices/authSlice.ts). Session storage is a map from key to
    the record stored under it; the JSON text itself is not modelled. */
module AuthSlice {
  import opened Common
  import opened UserTypes

  const AuthKey: string := "auth"
  const UserKey: string := "user"

  /** What a key of session storage holds: the `StoredAuth` triple written
      under "auth", or a bare user written under "user". */
  datatype Stored =
    | StoredAuth(isAuthenticated: bool, token: Option<string>, currentUser: Option<User>)
    | StoredUser(user: User)

  type Session = map<string, Stored>

  datatype AuthState = AuthState(
    isAuthenticated: bool,
    token: Option<string>,
    currentUser: Option<User>,
    users: seq<User>,
    loading: bool,
    error: Option<string>)

  /** A reducer's result together with the session storage it leaves behind. */
  datatype AuthStep = AuthStep(state: AuthState, session: Session)

  datatype Field = AuthenticatedField | TokenField | CurrentUserField | UsersField | LoadingField | ErrorField

  predicate Agree(s: AuthState, t: AuthState, f: Field)
  {
    match f
    case AuthenticatedField => s.isAuthenticated == t.isAuthenticated
    case TokenField => s.token == t.token
    case CurrentUserField => s.currentUser == t.currentUser
    case UsersField => s.users == t.users
    case LoadingField => s.loading == t.loading
    case ErrorField => s.error == t.error
  }

  /** `t` differs from `s` at most in the fields `fs`. */
  ghost predicate OnlyChanges(s: AuthState, t: AuthState, fs: set<Field>)
  {
    forall f :: f !in fs ==> Agree(s, t, f)
  }

  /** The "auth" entry of `after` is the one of `before` (present in both or in neither). */
  predicate SameAuthEntry(before: Session, after: Session)
  {
    (AuthKey in after <==> AuthKey in before)
    && (AuthKey in before ==> after[AuthKey] == before[AuthKey])
  }

  /** `parsedAuth.token && parsedAuth.currentUser`: the stored record has a
      non-empty token (an empty string is falsy) and a user. */
  predicate HoldsSession(session: Session)
  {
    && AuthKey in session
    && session[AuthKey].StoredAuth?
    && session[AuthKey].token.Some?
    && session[AuthKey].token.value != ""
    && session[AuthKey].currentUser.Some?
  }

  /** `getInitialState`: the store a page load starts from. */
  function Restore(session: Session): (r: AuthState)
    ensures r.users == [] && !r.loading && r.error.None?
    ensures r.isAuthenticated <==> HoldsSession(session)
    ensures HoldsSession(session) ==>
      r.token == session[AuthKey].token && r.currentUser == session[AuthKey].currentUser
    ensures !HoldsSession(session) ==> r.token.None? && r.currentUser.None?
    ensures r.isAuthenticated ==> r.token.Some? && r.token.value != "" && r.currentUser.Some?
  {
    if HoldsSession(session) then
      AuthState(true, session[AuthKey].token, session[AuthKey].currentUser, [], false, None)
    else
      AuthState(false, None, None, [], false, None)
  }

  /** The record written under "auth" for a granted session. */
  function Persist(session: Session, token: string, user: User): (r: Session)
    ensures AuthKey in r && r[AuthKey] == StoredAuth(true, Some(token), Some(user))
    ensures forall k :: k != AuthKey ==> (k in r <==> k in session)
    ensures forall k :: k != AuthKey && k in session ==> r[k] == session[k]
  {
    session[AuthKey := StoredAuth(true, Some(token), Some(user))]
  }

  /** `setAuth`. */
  function SetAuth(st: AuthState, session: Session, token: string, user: User): (r: AuthStep)
    ensures r.state.isAuthenticated && r.state.token == Some(token) && r.state.currentUser == Some(user)
    ensures OnlyChanges(st, r.state, {AuthenticatedField, TokenField, CurrentUserField})
    ensures r.session == Persist(session, token, user)
  {
    AuthStep(st.(isAuthenticated := true, token := Some(token), currentUser := Some(user)),
             Persist(session, token, user))
  }

  /** `logout` (the reducer): clears the session fields and the user list,
      removes "auth" and keeps `loading` and `error`. */
  function Logout(st: AuthState, session: Session): (r: AuthStep)
    ensures !r.state.isAuthenticated && r.state.token.None? && r.state.currentUser.None?
    ensures r.state.users == []
    ensures OnlyChanges(st, r.state, {AuthenticatedField, TokenField, CurrentUserField, UsersField})
    ensures AuthKey !in r.session
    ensures forall k :: k != AuthKey ==> (k in r.session <==> k in session)
    ensures forall k :: k != AuthKey && k in session ==> r.session[k] == session[k]
  {
    AuthStep(st.(isAuthenticated := false, token := None, currentUser := None, users := []),
             session - {AuthKey})
  }

  /** `setUsers`. */
  function SetUsers(st: AuthState, users: seq<User>): (r: AuthState)
    ensures r.users == users && OnlyChanges(st, r, {UsersField})
  {
    st.(users := users)
  }

  /** `clearError`. */
  function ClearError(st: AuthState): (r: AuthState)
    ensures r.error.None? && OnlyChanges(st, r, {ErrorField})
  {
    st.(error := None)
  }

  /** `setLoading`. */
  function SetLoading(st: AuthState, loading: bool): (r: AuthState)
    ensures r.loading == loading && OnlyChanges(st, r, {LoadingField})
  {
    st.(loading := loading)
  }

  /** `setError`. */
  function SetError(st: AuthState, error: Option<string>): (r: AuthState)
    ensures r.error == error && OnlyChanges(st, r, {ErrorField})
  {
    st.(error := error)
  }

  /** `loginSuccess`: does not touch the token. */
  function LoginSuccess(st: AuthState, user: User): (r: AuthState)
    ensures r.isAuthenticated && r.currentUser == Some(user) && r.error.None?
    ensures OnlyChanges(st, r, {AuthenticatedField, CurrentUserField, ErrorField})
  {
    st.(isAuthenticated := true, currentUser := Some(user), error := None)
  }

  /** `logoutSuccess`: does not touch the token. */
  function LogoutSuccess(st: AuthState): (r: AuthState)
    ensures !r.isAuthenticated && r.currentUser.None? && r.error.None?
    ensures OnlyChanges(st, r, {AuthenticatedField, CurrentUserField, ErrorField})
  {
    st.(isAuthenticated := false, currentUser := None, error := None)
  }

  /** `updateUserSuccess`. */
  function UpdateUserSuccess(st: AuthState, user: User): (r: AuthState)
    ensures r.currentUser == Some(user) && OnlyChanges(st, r, {CurrentUserField})
  {
    st.(currentUser := Some(user))
  }

  /** The five asynchronous thunks of the slice. */
  datatype Thunk = SignupThunk | LoginThunk | DeleteUserThunk | UpdateUserThunk | GetAllUsersThunk

  /** Every `.pending` case: each thunk makes the same two writes. */
  function Pending(st: AuthState): (r: AuthState)
    ensures r.loading && r.error.None?
    ensures OnlyChanges(st, r, {LoadingField, ErrorField})
  {
    st.(loading := true, error := None)
  }

  /** Every `.rejected` case: the error becomes the rejection payload, which
      each thunk always supplies as a message string. */
  function Rejected(st: AuthState, message: string): (r: AuthState)
    ensures !r.loading && r.error == Some(message)
    ensures OnlyChanges(st, r, {LoadingField, ErrorField})
  {
    st.(loading := false, error := Some(message))
  }

  /** The body the login endpoint answers with. */
  datatype LoginBody = LoginBody(message: string, user: User, accessToken: string, refreshToken: string)

  /** The `login` thunk's result: the access token doubles as the store's `token`. */
  function MapLoginResponse(body: LoginBody): (r: AuthResponse)
    ensures r.token == body.accessToken && r.accessToken == body.accessToken
    ensures r.user == body.user && r.refreshToken == body.refreshToken
  {
    AuthResponse(body.user, body.accessToken, body.accessToken, body.refreshToken)
  }

  /** `signup.fulfilled` and `login.fulfilled` (identical code): the response's
      `token` and `user` become the session, in the store and under "auth".
      `error` is left as the pending case set it. */
  function Granted(st: AuthState, session: Session, response: AuthResponse): (r: AuthStep)
    ensures !r.state.loading && r.state.isAuthenticated
    ensures r.state.token == Some(response.token) && r.state.currentUser == Some(response.user)
    ensures OnlyChanges(st, r.state, {LoadingField, AuthenticatedField, TokenField, CurrentUserField})
    ensures r.session == Persist(session, response.token, response.user)
  {
    AuthStep(st.(loading := false, isAuthenticated := true, token := Some(response.token),
                 currentUser := Some(response.user)),
             Persist(session, response.token, response.user))
  }

  /** `deleteUser.fulfilled`: only `loading` changes; the session stays. */
  function DeleteUserFulfilled(st: AuthState): (r: AuthState)
    ensures !r.loading && OnlyChanges(st, r, {LoadingField})
  {
    st.(loading := false)
  }

  /** `{...current, ...patch, _id: current._id}`: every field the patch
      carries overrides, except the id. */
  function MergeUser(current: User, patch: UserPatch): (r: User)
    ensures r.id == current.id
  {
    User(
      current.id,
      if patch.name.Some? then patch.name.value else current.name,
      if patch.email.Some? then patch.email.value else current.email,
      if patch.gender.Some? then patch.gender else current.gender,
      if patch.profileImage.Some? then patch.profileImage else current.profileImage)
  }

  /** The merge keeps the id, lets each carried field win, keeps each field
      the patch does not carry, and applying the same patch twice is
      applying it once. */
  lemma MergeUserLaws(current: User, patch: UserPatch)
    ensures MergeUser(current, patch).id == current.id
    ensures patch.name.Some? ==> MergeUser(current, patch).name == patch.name.value
    ensures patch.name.None? ==> MergeUser(current, patch).name == current.name
    ensures patch.email.Some? ==> MergeUser(current, patch).email == patch.email.value
    ensures patch.email.None? ==> MergeUser(current, patch).email == current.email
    ensures patch.gender.Some? ==> MergeUser(current, patch).gender == patch.gender
    ensures patch.gender.None? ==> MergeUser(current, patch).gender == current.gender
    ensures patch.profileImage.Some? ==> MergeUser(current, patch).profileImage == patch.profileImage
    ensures patch.profileImage.None? ==> MergeUser(current, patch).profileImage == current.profileImage
    ensures MergeUser(MergeUser(current, patch), patch) == MergeUser(current, patch)
    ensures MergeUser(current, UserPatch(None, None, None, None, None)) == current
  {
  }

  /** `updateUser.fulfilled`: merges the response into a present user and
      writes it under "user" (not "auth"); a null user stays null. */
  function UpdateUserFulfilled(st: AuthState, session: Session, patch: UserPatch): (r: AuthStep)
    ensures !r.state.loading
    ensures st.currentUser.None? ==> r.state.currentUser.None? && r.session == session
    ensures st.currentUser.Some? ==>
      && r.state.currentUser == Some(MergeUser(st.currentUser.value, patch))
      && r.state.currentUser.value.id == st.currentUser.value.id
      && r.session == session[UserKey := StoredUser(r.state.currentUser.value)]
    ensures OnlyChanges(st, r.state, {LoadingField, CurrentUserField})
    ensures SameAuthEntry(session, r.session)
  {
    match st.currentUser
    case None => AuthStep(st.(loading := false), session)
    case Some(current) =>
      var merged := MergeUser(current, patch);
      AuthStep(st.(loading := false, currentUser := Some(merged)), session[UserKey := StoredUser(merged)])
  }

  /** `getAllUsers.fulfilled`. */
  function GetAllUsersFulfilled(st: AuthState, users: seq<User>): (r: AuthState)
    ensures !r.loading && r.users == users
    ensures OnlyChanges(st, r, {LoadingField, UsersField})
  {
    st.(loading := false, users := users)
  }

  /** Every action the slice handles. */
  datatype AuthAction =
    | SetAuthAction(token: string, user: User)
    | LogoutAction
    | SetUsersAction(users: seq<User>)
    | ClearErrorAction
    | SetLoadingAction(loading: bool)
    | SetErrorAction(error: Option<string>)
    | LoginSuccessAction(user: User)
    | LogoutSuccessAction
    | UpdateUserSuccessAction(user: User)
    | PendingAction(thunk: Thunk)
    | RejectedAction(thunk: Thunk, message: string)
    | SignupFulfilledAction(response: AuthResponse)
    | LoginFulfilledAction(response: AuthResponse)
    | DeleteUserFulfilledAction
    | UpdateUserFulfilledAction(patch: UserPatch)
    | GetAllUsersFulfilledAction(users: seq<User>)

  /** The slice's reducer. Local storage is written only by the actions that
      establish or end a session and by a fulfilled profile update; every
      `.pending` and `.rejected` case ends with the same loading flag and
      error whatever the thunk. */
  function Reduce(st: AuthState, session: Session, action: AuthAction): (r: AuthStep)
    ensures !IsSessionAction(action) && !action.UpdateUserFulfilledAction? ==> r.session == session
    ensures action.PendingAction? ==> r.state.loading && r.state.error.None?
    ensures action.RejectedAction? ==> !r.state.loading && r.state.error == Some(action.message)
  {
    match action
    case SetAuthAction(token, user) => SetAuth(st, session, token, user)
    case LogoutAction => Logout(st, session)
    case SetUsersAction(users) => AuthStep(SetUsers(st, users), session)
    case ClearErrorAction => AuthStep(ClearError(st), session)
    case SetLoadingAction(loading) => AuthStep(SetLoading(st, loading), session)
    case SetErrorAction(error) => AuthStep(SetError(st, error), session)
    case LoginSuccessAction(user) => AuthStep(LoginSuccess(st, user), session)
    case LogoutSuccessAction => AuthStep(LogoutSuccess(st), session)
    case UpdateUserSuccessAction(user) => AuthStep(UpdateUserSuccess(st, user), session)
    case PendingAction(_) => AuthStep(Pending(st), session)
    case RejectedAction(_, message) => AuthStep(Rejected(st, message), session)
    case SignupFulfilledAction(response) => Granted(st, session, response)
    case LoginFulfilledAction(response) => Granted(st, session, response)
    case DeleteUserFulfilledAction => AuthStep(DeleteUserFulfilled(st), session)
    case UpdateUserFulfilledAction(patch) => UpdateUserFulfilled(st, session, patch)
    case GetAllUsersFulfilledAction(users) => AuthStep(GetAllUsersFulfilled(st, users), session)
  }

  /** The actions that establish or end a session. */
  predicate IsSessionAction(action: AuthAction)
  {
    action.SetAuthAction? || action.LogoutAction? || action.SignupFulfilledAction? || action.LoginFulfilledAction?
  }

  /** Only the session actions write the token or the "auth" entry; every
      other action (including `loginSuccess` and `logoutSuccess`) leaves
      both alone. */
  lemma OnlySessionActionsTouchToken(st: AuthState, session: Session, action: AuthAction)
    requires !IsSessionAction(action)
    ensures Reduce(st, session, action).state.token == st.token
    ensures SameAuthEntry(session, Reduce(st, session, action).session)
  {
  }

  /** Each action reaches its own case reducer: the synchronous reducers and
      the fulfilled cases write exactly their fields, and only the session
      actions and a fulfilled profile update write storage. */
  lemma ReduceRoutes(st: AuthState, session: Session, a: AuthAction)
    ensures a.SetAuthAction? ==> Reduce(st, session, a) == SetAuth(st, session, a.token, a.user)
    ensures a.LogoutAction? ==> Reduce(st, session, a) == Logout(st, session)
    ensures a.SetUsersAction? ==> Reduce(st, session, a) == AuthStep(st.(users := a.users), session)
    ensures a.ClearErrorAction? ==> Reduce(st, session, a) == AuthStep(st.(error := None), session)
    ensures a.SetLoadingAction? ==> Reduce(st, session, a) == AuthStep(st.(loading := a.loading), session)
    ensures a.SetErrorAction? ==> Reduce(st, session, a) == AuthStep(st.(error := a.error), session)
    ensures a.LoginSuccessAction? ==>
      Reduce(st, session, a) == AuthStep(st.(isAuthenticated := true, currentUser := Some(a.user), error := None), session)
    ensures a.LogoutSuccessAction? ==>
      Reduce(st, session, a) == AuthStep(st.(isAuthenticated := false, currentUser := None, error := None), session)
    ensures a.UpdateUserSuccessAction? ==> Reduce(st, session, a) == AuthStep(st.(currentUser := Some(a.user)), session)
    ensures a.PendingAction? ==> Reduce(st, session, a) == AuthStep(st.(loading := true, error := None), session)
    ensures a.RejectedAction? ==> Reduce(st, session, a) == AuthStep(st.(loading := false, error := Some(a.message)), session)
    ensures a.SignupFulfilledAction? ==> Reduce(st, session, a) == Granted(st, session, a.response)
    ensures a.LoginFulfilledAction? ==> Reduce(st, session, a) == Granted(st, session, a.response)
    ensures a.DeleteUserFulfilledAction? ==> Reduce(st, session, a) == AuthStep(st.(loading := false), session)
    ensures a.UpdateUserFulfilledAction? ==> Reduce(st, session, a) == UpdateUserFulfilled(st, session, a.patch)
    ensures a.GetAllUsersFulfilledAction? ==>
      Reduce(st, session, a) == AuthStep(st.(loading := false, users := a.users), session)
  {
  }

  /** Restoring what a granted session persisted gives back the same session
      (for a non-empty token), with the transient fields reset. */
  lemma RestoreAfterGranted(st: AuthState, session: Session, response: AuthResponse)
    ensures var r := Granted(st, session, response);
      response.token != "" ==>
        Restore(r.session) == r.state.(users := [], loading := false, error := None)
    ensures response.token == "" ==> !Restore(Granted(st, session, response).session).isAuthenticated
  {
  }

  /** The same round trip for `setAuth`. */
  lemma RestoreAfterSetAuth(st: AuthState, session: Session, token: string, user: User)
    ensures var r := SetAuth(st, session, token, user);
      token != "" ==> Restore(r.session) == r.state.(users := [], loading := false, error := None)
    ensures token == "" ==> !Restore(SetAuth(st, session, token, user).session).isAuthenticated
  {
  }

  /** After `logout`, a reload starts unauthenticated. */
  lemma RestoreAfterLogout(st: AuthState, session: Session)
    ensures Restore(Logout(st, session).session) == AuthState(false, None, None, [], false, None)
  {
  }

  /** A login's access token is what the store and a later reload see. */
  lemma LoginKeepsAccessToken(st: AuthState, session: Session, body: LoginBody)
    ensures Reduce(st, session, LoginFulfilledAction(MapLoginResponse(body))).state.token == Some(body.accessToken)
    ensures body.accessToken != "" ==>
      Restore(Reduce(st, session, LoginFulfilledAction(MapLoginResponse(body))).session).token == Some(body.accessToken)
  {
  }

  /** A profile update is written under "user", which restore never reads:
      a reload brings back the user stored at login, not the merged one. */
  lemma RestoreIgnoresProfileUpdate(st: AuthState, session: Session, patch: UserPatch)
    ensures Restore(UpdateUserFulfilled(st, session, patch).session) == Restore(session)
  {
  }
}

=== FILE: chat_slice.dfy ===
/** The chat store: its initial state and every reducer, as pure updates of
    one record (src/redux/slices/chatSlice.ts). */
module ChatSlice {
  import opened Common
  import opened ChatTypes

  /** `uploadStatus`: "idle" | "loading" | "success" | "error". */
  datatype UploadStatus = UploadIdle | UploadLoading | UploadSuccess | UploadFailed

  /** The status `updateCallStatus` writes: "connecting" | "active" | "ended". */
  datatype ActiveCallStatus = Connecting | Active | Finished

  /** The `ActiveCall` record of the store; only its `status` is read or
      written by a reducer, the other fields are carried along. */
  datatype ActiveCall = ActiveCall(peer: string, kind: CallKind, status: ActiveCallStatus)

  datatype ChatState = ChatState(
    messages: seq<Message>,
    typingStatus: map<string, bool>,
    onlineStatus: map<string, bool>,
    activeChat: Option<ActiveChat>,
    uploadStatus: UploadStatus,
    uploadError: Option<string>,
    loading: bool,
    error: Option<string>,
    activeCall: Option<ActiveCall>)

  /** The fields of the store, so that a reducer's frame can be stated. */
  datatype Field =
    | MessagesField | TypingField | OnlineField | ActiveChatField | UploadStatusField
    | UploadErrorField | LoadingField | ErrorField | ActiveCallField

  predicate Agree(s: ChatState, t: ChatState, f: Field)
  {
    match f
    case MessagesField => s.messages == t.messages
    case TypingField => s.typingStatus == t.typingStatus
    case OnlineField => s.onlineStatus == t.onlineStatus
    case ActiveChatField => s.activeChat == t.activeChat
    case UploadStatusField => s.uploadStatus == t.uploadStatus
    case UploadErrorField => s.uploadError == t.uploadError
    case LoadingField => s.loading == t.loading
    case ErrorField => s.error == t.error
    case ActiveCallField => s.activeCall == t.activeCall
  }

  /** `t` differs from `s` at most in the fields `fs`. */
  ghost predicate OnlyChanges(s: ChatState, t: ChatState, fs: set<Field>)
  {
    forall f :: f !in fs ==> Agree(s, t, f)
  }

  /** Updating one key of a status map: the key gets the new value, every
      other key keeps its presence and its value. */
  ghost predicate UpdatedAt(before: map<string, bool>, after: map<string, bool>, key: string, value: bool)
  {
    && key in after && after[key] == value
    && (forall k :: k != key ==> (k in after <==> k in before))
    && (forall k :: k != key && k in before ==> after[k] == before[k])
  }

  /** `initialState`. */
  function InitialState(): (r: ChatState)
    ensures r.messages == [] && r.typingStatus == map[] && r.onlineStatus == map[]
    ensures r.activeChat.None? && r.activeCall.None?
    ensures r.uploadStatus == UploadIdle && r.uploadError.None?
    ensures !r.loading && r.error.None?
  {
    ChatState([], map[], map[], None, UploadIdle, None, false, None, None)
  }

  /** `setMessages`: the list becomes exactly the payload. */
  function SetMessages(s: ChatState, messages: seq<Message>): (r: ChatState)
    ensures r.messages == messages
    ensures OnlyChanges(s, r, {MessagesField})
  {
    s.(messages := messages)
  }

  /** `addMessage`: push at the end, with no de-duplication. */
  function AddMessage(s: ChatState, m: Message): (r: ChatState)
    ensures |r.messages| == |s.messages| + 1
    ensures r.messages[..|s.messages|] == s.messages
    ensures r.messages[|s.messages|] == m
    ensures OnlyChanges(s, r, {MessagesField})
  {
    s.(messages := s.messages + [m])
  }

  /** `setTypingStatus`. */
  function SetTypingStatus(s: ChatState, userId: string, status: bool): (r: ChatState)
    ensures UpdatedAt(s.typingStatus, r.typingStatus, userId, status)
    ensures OnlyChanges(s, r, {TypingField})
  {
    s.(typingStatus := s.typingStatus[userId := status])
  }

  /** `setOnlineStatus`. */
  function SetOnlineStatus(s: ChatState, userId: string, status: bool): (r: ChatState)
    ensures UpdatedAt(s.onlineStatus, r.onlineStatus, userId, status)
    ensures OnlyChanges(s, r, {OnlineField})
  {
    s.(onlineStatus := s.onlineStatus[userId := status])
  }

  /** `setActiveChat`. */
  function SetActiveChat(s: ChatState, chat: Option<ActiveChat>): (r: ChatState)
    ensures r.activeChat == chat
    ensures OnlyChanges(s, r, {ActiveChatField})
  {
    s.(activeChat := chat)
  }

  /** `setUploadStatus`. */
  function SetUploadStatus(s: ChatState, status: UploadStatus): (r: ChatState)
    ensures r.uploadStatus == status
    ensures OnlyChanges(s, r, {UploadStatusField})
  {
    s.(uploadStatus := status)
  }

  /** `setUploadError`. */
  function SetUploadError(s: ChatState, error: Option<string>): (r: ChatState)
    ensures r.uploadError == error
    ensures OnlyChanges(s, r, {UploadErrorField})
  {
    s.(uploadError := error)
  }

  /** `setLoading`. */
  function SetLoading(s: ChatState, loading: bool): (r: ChatState)
    ensures r.loading == loading
    ensures OnlyChanges(s, r, {LoadingField})
  {
    s.(loading := loading)
  }

  /** `setError`. */
  function SetError(s: ChatState, error: Option<string>): (r: ChatState)
    ensures r.error == error
    ensures OnlyChanges(s, r, {ErrorField})
  {
    s.(error := error)
  }

  /** `setActiveCall`. */
  function SetActiveCall(s: ChatState, call: Option<ActiveCall>): (r: ChatState)
    ensures r.activeCall == call
    ensures OnlyChanges(s, r, {ActiveCallField})
  {
    s.(activeCall := call)
  }

  /** `updateCallStatus`: rewrites the status of the current call and keeps
      the rest of the call record; without a current call nothing changes. */
  function UpdateCallStatus(s: ChatState, status: ActiveCallStatus): (r: ChatState)
    ensures s.activeCall.None? ==> r == s
    ensures s.activeCall.Some? ==>
      && r.activeCall.Some?
      && r.activeCall.value.status == status
      && r.activeCall.value.peer == s.activeCall.value.peer
      && r.activeCall.value.kind == s.activeCall.value.kind
    ensures OnlyChanges(s, r, {ActiveCallField})
  {
    match s.activeCall
    case None => s
    case Some(call) => s.(activeCall := Some(call.(status := status)))
  }

  /** A run of `addMessage` dispatches, in order. */
  function AddAll(s: ChatState, ms: seq<Message>): ChatState
    decreases |ms|
  {
    if ms == [] then s else AddAll(AddMessage(s, ms[0]), ms[1..])
  }

  /** Appending one by one is appending the whole run: order is kept and
      nothing is dropped or merged. */
  lemma {:induction false} AddAllAppends(s: ChatState, ms: seq<Message>)
    ensures AddAll(s, ms).messages == s.messages + ms
    ensures OnlyChanges(s, AddAll(s, ms), {MessagesField})
    decreases |ms|
  {
    if ms != [] {
      var s1 := AddMessage(s, ms[0]);
      AddAllAppends(s1, ms[1..]);
      assert s1.messages == s.messages + [ms[0]];
      assert [ms[0]] + ms[1..] == ms;
      assert s.messages + [ms[0]] + ms[1..] == s.messages + ms;
    }
  }

  /** Typing flags are last-write-wins per key. */
  lemma TypingLastWriteWins(s: ChatState, userId: string, first: bool, second: bool)
    ensures SetTypingStatus(SetTypingStatus(s, userId, first), userId, second)
         == SetTypingStatus(s, userId, second)
  {
  }

  /** Online flags are last-write-wins per key, and writes to different keys
      commute. */
  lemma OnlineWrites(s: ChatState, a: string, b: string, x: bool, y: bool)
    ensures SetOnlineStatus(SetOnlineStatus(s, a, x), a, y) == SetOnlineStatus(s, a, y)
    ensures a != b ==>
      SetOnlineStatus(SetOnlineStatus(s, a, x), b, y) == SetOnlineStatus(SetOnlineStatus(s, b, y), a, x)
  {
    var m := s.onlineStatus;
    assert m[a := x][a := y] == m[a := y];
    if a != b {
      assert m[a := x][b := y] == m[b := y][a := x];
    }
  }

  /** Setting the call status twice keeps only the second status. */
  lemma CallStatusLastWriteWins(s: ChatState, first: ActiveCallStatus, second: ActiveCallStatus)
    ensures UpdateCallStatus(UpdateCallStatus(s, first), second) == UpdateCallStatus(s, second)
  {
  }
}

=== FILE: chat_types.dfy ===
/** The chat records shared by the store, the socket service and the
    components (src/types/chat.ts, plus the active-chat shape of
    src/components/Chat/ChatWindow.tsx). */
module ChatTypes {
  import opened Common

  datatype Sender = Sender(id: string, email: string)

  /** `IMessage.type`: "text" | "file" | "call". */
  datatype MessageKind = Text | File | Call

  /** `IMessage`. The source leaves `receiver` and `group` optional;
      messages built on the client set exactly one of them. */
  datatype Message = Message(
    id: string,
    sender: Sender,
    receiver: Option<string>,
    group: Option<string>,
    content: string,
    kind: MessageKind,
    fileUrl: Option<string>,
    createdAt: string)

  /** `ICallData.type`: "video" | "audio". */
  datatype CallKind = Video | Audio

  /** `ICallData.status`. */
  datatype CallStatus = Ringing | Accepted | Rejected | Ended

  /** `ICallData`: a call-signalling event from peer `from`. */
  datatype CallData = CallData(from: string, kind: CallKind, status: CallStatus)

  /** `ActiveChat.type`: "private" | "group". */
  datatype ChatKind = Private | Group

  /** The conversation the user has selected. */
  datatype ActiveChat = ActiveChat(kind: ChatKind, id: string)

  /** A message (or a call) is addressed like the chat it belongs to: to the
      peer in a private chat, to the group in a group chat, never to both. */
  predicate AddressedTo(receiver: Option<string>, group: Option<string>, chat: ActiveChat)
  {
    match chat.kind
    case Private => receiver == Some(chat.id) && group.None?
    case Group => receiver.None? && group == Some(chat.id)
  }
}

=== FILE: chat_window.dfy ===
/** The call and send logic of the chat window
    (src/components/Chat/ChatWindow.tsx): the incoming-call handler, its
    registration per active chat, the reset on chat change, the call
    buttons and the submit guard. Rendering, scrolling, focus, the typing
    timer and the file upload are not part of this model. */
module ChatWindow {
  import opened Common
  import opened ChatTypes
  import opened UserTypes
  import ChatSlice
  import opened SocketService
  import UseChat

  /** The `callInProgress` banner: the call's kind and the chat kind it was
      started from. */
  datatype CallInProgress = CallInProgress(kind: CallKind, chatKind: ChatKind)

  /** The component's own state: the text input, the incoming-call dialog and
      the call banner. */
  datatype Window = Window(input: string, incomingCall: Option<CallData>, callInProgress: Option<CallInProgress>)

  datatype WindowStep = WindowStep(window: Window, step: Step)

  /** `handleIncomingCall`: a ringing call opens the dialog, an ended call
      closes the dialog and the banner, and "accepted" or "rejected" change
      nothing. */
  function HandleIncomingCall(w: Window, data: CallData): (r: Window)
    ensures data.status == Ringing ==>
      r.incomingCall == Some(data) && r.callInProgress == w.callInProgress && r.input == w.input
    ensures data.status == Ended ==>
      r.incomingCall.None? && r.callInProgress.None? && r.input == w.input
    ensures data.status == Accepted || data.status == Rejected ==> r == w
  {
    match data.status
    case Ringing => w.(incomingCall := Some(CallData(data.from, data.kind, data.status)))
    case Ended => w.(incomingCall := None, callInProgress := None)
    case Accepted => w
    case Rejected => w
  }

  /** `activeChat?.id` is truthy. */
  predicate HasChatId(chat: Option<ActiveChat>)
  {
    chat.Some? && chat.value.id != ""
  }

  /** The registration effect: the window's handler under the chat's id. */
  function RegisterFor(s: Service, chat: Option<ActiveChat>, handler: HandlerId): (r: Service)
    ensures HasChatId(chat) ==> r == RegisterCallHandler(s, chat.value.id, handler)
    ensures !HasChatId(chat) ==> r == s
  {
    if HasChatId(chat) then RegisterCallHandler(s, chat.value.id, handler) else s
  }

  /** The registration effect's cleanup: removes the entry for the chat the
      effect registered under. */
  function UnregisterFor(s: Service, chat: Option<ActiveChat>): (r: Service)
    ensures HasChatId(chat) ==> r == UnregisterCallHandler(s, chat.value.id)
    ensures !HasChatId(chat) ==> r == s
  {
    if HasChatId(chat) then UnregisterCallHandler(s, chat.value.id) else s
  }

  /** Selecting a chat: the store's active chat changes, then the effects
      keyed on it run — the previous registration's cleanup, the history
      request of `useChat`, the banner reset and the new registration. */
  function SelectChat(w: Window, s: Service, chat: Option<ActiveChat>, handler: HandlerId): (r: WindowStep)
    ensures r.window == w.(callInProgress := None)
    ensures r.step.service.chat.activeChat == chat
    ensures ChatSlice.OnlyChanges(s.chat, r.step.service.chat, {ChatSlice.ActiveChatField})
    ensures HasChatId(chat) ==> chat.value.id in r.step.service.handlers && r.step.service.handlers[chat.value.id] == handler
    ensures HasChatId(s.chat.activeChat) && s.chat.activeChat != chat && !HasChatId(chat) ==>
      s.chat.activeChat.value.id !in r.step.service.handlers
    ensures HasChatId(s.chat.activeChat) && HasChatId(chat) && s.chat.activeChat.value.id != chat.value.id ==>
      s.chat.activeChat.value.id !in r.step.service.handlers
    ensures forall p :: p in s.handlers && !(HasChatId(chat) && p == chat.value.id)
                        && !(HasChatId(s.chat.activeChat) && p == s.chat.activeChat.value.id) ==>
      p in r.step.service.handlers && r.step.service.handlers[p] == s.handlers[p]
    ensures r.step.effects == UseChat.LoadHistory(s, chat).effects
    ensures r.step.service.socket == s.socket && r.step.service.attempts == s.attempts
    ensures r.step.service.currentUserId == s.currentUserId
  {
    var previous := s.chat.activeChat;
    var selected := s.(chat := ChatSlice.SetActiveChat(s.chat, chat));
    var cleaned := UnregisterFor(selected, previous);
    var load := UseChat.LoadHistory(cleaned, chat);
    WindowStep(w.(callInProgress := None), Step(RegisterFor(load.service, chat, handler), load.effects))
  }

  /** `handleCall`: with an active chat, rings it and shows the banner for
      the chat's kind — even when the socket is down and nothing is emitted. */
  function HandleCall(w: Window, s: Service, kind: CallKind): (r: WindowStep)
    ensures s.chat.activeChat.None? ==> r == WindowStep(w, Step(s, []))
    ensures s.chat.activeChat.Some? ==>
      && r.window == w.(callInProgress := Some(CallInProgress(kind, s.chat.activeChat.value.kind)))
      && r.step == UseChat.StartChatCall(s, s.chat.activeChat, kind)
  {
    match s.chat.activeChat
    case None => WindowStep(w, Step(s, []))
    case Some(chat) =>
      WindowStep(w.(callInProgress := Some(CallInProgress(kind, chat.kind))),
                 UseChat.StartChatCall(s, s.chat.activeChat, kind))
  }

  /** `answerCall`: needs the dialog and an active chat; rings the caller
      back privately, closes the dialog and shows a private-call banner. */
  function AnswerCall(w: Window, s: Service): (r: WindowStep)
    ensures w.incomingCall.None? || s.chat.activeChat.None? ==> r == WindowStep(w, Step(s, []))
    ensures w.incomingCall.Some? && s.chat.activeChat.Some? ==>
      && r.window.incomingCall.None?
      && r.window.callInProgress == Some(CallInProgress(w.incomingCall.value.kind, Private))
      && r.window.input == w.input
      && r.step == StartCall(s, Some(w.incomingCall.value.from), None, w.incomingCall.value.kind)
  {
    if w.incomingCall.None? || s.chat.activeChat.None? then WindowStep(w, Step(s, []))
    else
      var call := w.incomingCall.value;
      WindowStep(w.(incomingCall := None, callInProgress := Some(CallInProgress(call.kind, Private))),
                 StartCall(s, Some(call.from), None, call.kind))
  }

  /** `rejectCall`: ends the call towards the caller and closes the dialog,
      leaving any banner in place. */
  function RejectCall(w: Window, s: Service): (r: WindowStep)
    ensures w.incomingCall.None? ==> r == WindowStep(w, Step(s, []))
    ensures w.incomingCall.Some? ==>
      && r.window == w.(incomingCall := None)
      && r.step == EndCall(s, Some(w.incomingCall.value.from), None, w.incomingCall.value.kind)
  {
    match w.incomingCall
    case None => WindowStep(w, Step(s, []))
    case Some(call) => WindowStep(w.(incomingCall := None), EndCall(s, Some(call.from), None, call.kind))
  }

  /** The "End Call" button, shown only with an active chat and a banner: ends
      the call towards exactly one of the peer or the group and hides the
      banner. */
  function EndCallButton(w: Window, s: Service): (r: WindowStep)
    ensures w.callInProgress.None? || s.chat.activeChat.None? ==> r == WindowStep(w, Step(s, []))
    ensures w.callInProgress.Some? && s.chat.activeChat.Some? ==>
      && r.window == w.(callInProgress := None)
      && r.step.service == s
      && |r.step.effects| == (if IsConnected(s) then 1 else 0)
      && forall e :: e in r.step.effects ==>
           && e.Emit? && e.payload.CallPayload? && e.payload.status == Ended
           && e.payload.kind == w.callInProgress.value.kind
           && AddressedTo(e.payload.receiverId, e.payload.groupId, s.chat.activeChat.value)
  {
    if w.callInProgress.None? || s.chat.activeChat.None? then WindowStep(w, Step(s, []))
    else
      var chat := s.chat.activeChat.value;
      WindowStep(w.(callInProgress := None),
                 EndCall(s, if chat.kind == Private then Some(chat.id) else None,
                            if chat.kind == Group then Some(chat.id) else None,
                            w.callInProgress.value.kind))
  }

  /** `handleSubmit`: sends the input as typed (untrimmed, type "text") when
      its trimmed form is non-empty and a chat is active, then clears the
      input; otherwise nothing happens. `id` and `createdAt` come from the
      clock. */
  function HandleSubmit(w: Window, s: Service, currentUser: Option<User>, id: string, createdAt: string): (r: WindowStep)
    ensures AllWhitespace(w.input) || s.chat.activeChat.None? ==> r == WindowStep(w, Step(s, []))
    ensures !AllWhitespace(w.input) && s.chat.activeChat.Some? ==>
      && r.window == w.(input := "")
      && r.step == UseChat.SendChatMessage(s, currentUser, s.chat.activeChat, w.input, Text, None, id, createdAt)
  {
    TrimEmptyIff(w.input);
    if Trim(w.input) != "" && s.chat.activeChat.Some? then
      WindowStep(w.(input := ""),
                 UseChat.SendChatMessage(s, currentUser, s.chat.activeChat, w.input, Text, None, id, createdAt))
    else WindowStep(w, Step(s, []))
  }

  /** Applies to the window every invocation of its own handler in a log. */
  function ApplyInvocations(w: Window, effects: seq<Effect>, handler: HandlerId): Window
    decreases |effects|
  {
    if effects == [] then w
    else
      var next := if effects[0].Invoke? && effects[0].handler == handler
                  then HandleIncomingCall(w, effects[0].data) else w;
      ApplyInvocations(next, effects[1..], handler)
  }

  /** After selecting a chat, a ringing call from that chat's id reaches the
      window and opens the dialog; an ended call from it closes dialog and
      banner. */
  lemma CallFromSelectedChatReachesWindow(w: Window, s: Service, chat: ActiveChat, handler: HandlerId, data: CallData)
    requires s.socket.Some? && chat.id != "" && data.from == chat.id
    ensures var sel := SelectChat(w, s, Some(chat), handler);
      var shown := ApplyInvocations(sel.window, Deliver(sel.step.service, CallEvent(data)).effects, handler);
      && (data.status == Ringing ==> shown.incomingCall == Some(data))
      && (data.status == Ended ==> shown.incomingCall.None? && shown.callInProgress.None?)
  {
  }

  /** A call from a peer with no registered handler leaves the window as it is. */
  lemma UnregisteredCallerIsIgnored(w: Window, s: Service, data: CallData, handler: HandlerId)
    requires data.from !in s.handlers
    ensures ApplyInvocations(w, Deliver(s, CallEvent(data)).effects, handler) == w
  {
  }
}

=== FILE: common.dfy ===
/** Shared vocabulary: an optional value (a nullable or optional field in the
    source) and the string predicates that JavaScript's `startsWith`,
    `includes`, `trim`, the regular-expression class `\s` and the `i` flag
    stand for. */
module Common {

  datatype Option<+T> = None | Some(value: T)

  predicate StartsWith(s: string, prefix: string)
  {
    |prefix| <= |s| && s[..|prefix|] == prefix
  }

  /** `p` occurs in `s` as a contiguous block starting at index `i`. */
  predicate OccursAt(s: string, p: string, i: int)
  {
    0 <= i && i + |p| <= |s| && s[i..i + |p|] == p
  }

  /** JavaScript's `s.includes(p)`: `p` occurs somewhere in `s`. */
  predicate Contains(s: string, p: string)
  {
    exists i :: 0 <= i <= |s| - |p| && OccursAt(s, p, i)
  }

  /** The characters JavaScript's `\s` and `String.prototype.trim` treat as
      white space: the WhiteSpace and LineTerminator productions of ECMA-262. */
  predicate IsWhitespace(c: char)
  {
    || c == '\t' || c == '\n' || c == '\U{000B}' || c == '\U{000C}' || c == '\r'
    || c == ' ' || c == '\U{00A0}' || c == '\U{1680}' || ('\U{2000}' <= c <= '\U{200A}')
    || c == '\U{2028}' || c == '\U{2029}' || c == '\U{202F}' || c == '\U{205F}'
    || c == '\U{3000}' || c == '\U{FEFF}'
  }

  predicate AllWhitespace(s: string)
  {
    forall i :: 0 <= i < |s| ==> IsWhitespace(s[i])
  }

  /** The number of white-space characters `s` starts with. */
  function LeadingWhitespace(s: string): (n: nat)
    ensures n <= |s|
    ensures forall i :: 0 <= i < n ==> IsWhitespace(s[i])
    ensures n == |s| || !IsWhitespace(s[n])
    decreases |s|
  {
    if |s| > 0 && IsWhitespace(s[0]) then 1 + LeadingWhitespace(s[1..]) else 0
  }

  /** `s.trimStart()`: the longest suffix of `s` that does not start with white space. */
  function TrimStart(s: string): (r: string)
    ensures |r| <= |s| && r == s[|s| - |r|..]
    ensures AllWhitespace(s[..|s| - |r|])
    ensures r == [] || !IsWhitespace(r[0])
    ensures |s| > 0 && IsWhitespace(s[0]) ==> |r| < |s|
  {
    s[LeadingWhitespace(s)..]
  }

  /** A leading white-space character is dropped with the rest of the run. */
  lemma TrimStartSkipsHead(s: string)
    requires |s| > 0 && IsWhitespace(s[0])
    ensures TrimStart(s) == TrimStart(s[1..])
  {
  }

  /** `s.trimEnd()`: the longest prefix of `s` that does not end with white space. */
  function TrimEnd(s: string): (r: string)
    ensures |r| <= |s| && r == s[..|r|]
    ensures AllWhitespace(s[|r|..])
    ensures r == [] || !IsWhitespace(r[|r| - 1])
    decreases |s|
  {
    if |s| > 0 && IsWhitespace(s[|s| - 1]) then
      var init := s[..|s| - 1];
      var r := TrimEnd(init);
      assert r == s[..|r|];
      forall i | |r| <= i < |s|
        ensures IsWhitespace(s[i])
      {
        if i < |s| - 1 {
          assert s[i] == init[|r|..][i - |r|];
        }
      }
      r
    else s
  }

  /** `s.trim()`. */
  function Trim(s: string): string
  {
    TrimEnd(TrimStart(s))
  }

  /** `s.trim()` is falsy exactly when every character of `s` is white space. */
  lemma TrimEmptyIff(s: string)
    ensures Trim(s) == "" <==> AllWhitespace(s)
  {
  }

  function LowerAscii(c: char): char
  {
    if 'A' <= c <= 'Z' then (c as int + 32) as char else c
  }

  /** Equality under the `i` flag of a non-Unicode regular expression, which
      folds only ASCII letters for the patterns used here. */
  predicate EqualsIgnoringCase(a: string, b: string)
  {
    |a| == |b| && forall i :: 0 <= i < |a| ==> LowerAscii(a[i]) == LowerAscii(b[i])
  }
}

=== FILE: image_upload.dfy ===
/** The validation branch of the image picker's change handler
    (src/components/custom/ImageUpload.tsx): a size check, then a type
    check, then the upload flags. Reading the file as base64 is not part of
    this model. */
module ImageUpload {
  import opened Common

  /** The default `maxSize`: 5 MiB. The source's `maxSize` is a JavaScript
      number; sizes and limits here are natural numbers of bytes, so a
      fractional or negative limit is not modelled. */
  const DefaultMaxSize: nat := 5 * 1024 * 1024

  /** The chosen file as the handler sees it: size in bytes and MIME type. */
  datatype SelectedFile = SelectedFile(size: nat, mimeType: string)

  /** The messages the handler shows; the size message's MB figure is
      derived from `maxSize`. */
  datatype UploadError = TooLarge(maxSize: nat) | NotAnImage

  datatype UploadState = UploadState(isUploading: bool, error: Option<UploadError>, previewUrl: Option<string>)

  /** `file.type.match("image.*")`: the pattern is not anchored and `.*` may
      match nothing, so it matches wherever "image" occurs. */
  predicate LooksLikeImage(mimeType: string)
  {
    Contains(mimeType, "image")
  }

  datatype Validation = Accept | Reject(error: UploadError)

  /** The two checks, size first. */
  function Validate(file: SelectedFile, maxSize: nat): (v: Validation)
    ensures v == Accept <==> file.size <= maxSize && LooksLikeImage(file.mimeType)
    ensures file.size > maxSize ==> v == Reject(TooLarge(maxSize))
    ensures file.size <= maxSize && !LooksLikeImage(file.mimeType) ==> v == Reject(NotAnImage)
  {
    if file.size > maxSize then Reject(TooLarge(maxSize))
    else if !LooksLikeImage(file.mimeType) then Reject(NotAnImage)
    else Accept
  }

  /** The state after the change handler, and whether it starts reading. */
  datatype Change = Change(state: UploadState, startsReading: bool)

  /** `handleFileChange`: no file changes nothing; a rejected file shows its
      error and leaves `isUploading` and the preview alone; an accepted file
      sets `isUploading`, clears the error and starts reading. */
  function HandleFileChange(st: UploadState, file: Option<SelectedFile>, maxSize: nat): (r: Change)
    ensures file.None? ==> r == Change(st, false)
    ensures file.Some? && Validate(file.value, maxSize).Reject? ==>
      && r.state.error == Some(Validate(file.value, maxSize).error)
      && r.state.isUploading == st.isUploading && r.state.previewUrl == st.previewUrl
      && !r.startsReading
    ensures file.Some? && Validate(file.value, maxSize) == Accept ==>
      && r.state.isUploading && r.state.error.None? && r.state.previewUrl == st.previewUrl
      && r.startsReading
  {
    match file
    case None => Change(st, false)
    case Some(f) =>
      match Validate(f, maxSize)
      case Reject(e) => Change(st.(error := Some(e)), false)
      case Accept => Change(st.(isUploading := true, error := None), true)
  }

  /** The size limit is inclusive: a file of exactly `maxSize` bytes passes
      the size check, one byte more does not. */
  lemma SizeLimitIsInclusive(mimeType: string, maxSize: nat)
    ensures Validate(SelectedFile(maxSize, mimeType), maxSize) != Reject(TooLarge(maxSize))
    ensures Validate(SelectedFile(maxSize + 1, mimeType), maxSize) == Reject(TooLarge(maxSize))
  {
  }

  /** The size check wins: an oversize file that is not an image reports the
      size, not the type. */
  lemma SizeCheckedBeforeType(file: SelectedFile, maxSize: nat)
    requires file.size > maxSize && !LooksLikeImage(file.mimeType)
    ensures HandleFileChange(UploadState(false, None, None), Some(file), maxSize).state.error == Some(TooLarge(maxSize))
  {
  }

  /** The type check accepts exactly the types that split as anything,
      then "image", then anything: "image/png" and "application/x-image-data"
      pass, "text/plain" does not. */
  lemma TypeCheckIsSubstringMatch(mimeType: string)
    ensures LooksLikeImage(mimeType) <==> exists a: string, b: string :: mimeType == a + "image" + b
    ensures LooksLikeImage("image/png")
    ensures LooksLikeImage("application/x-image-data")
    ensures !LooksLikeImage("text/plain")
  {
    if LooksLikeImage(mimeType) {
      var i :| 0 <= i <= |mimeType| - 5 && OccursAt(mimeType, "image", i);
      var a, b := mimeType[..i], mimeType[i + 5..];
      assert mimeType == a + "image" + b;
    }
    if exists a: string, b: string :: mimeType == a + "image" + b {
      var a: string, b: string :| mimeType == a + "image" + b;
      assert OccursAt(mimeType, "image", |a|);
    }
    assert OccursAt("image/png", "image", 0);
    assert OccursAt("application/x-image-data", "image", 14);
    NoImageInTextPlain();
  }

  lemma NoImageInTextPlain()
    ensures !exists i :: OccursAt("text/plain", "image", i)
  {
    var t := "text/plain";
    forall i
      ensures !OccursAt(t, "image", i)
    {
      if 0 <= i && i + 5 <= |t| {
        assert t[i..i + 5][0] == t[i];
        assert t[i] != 'i';
      }
    }
  }

  /** A worked instance, not a property: the default limit is 5 242 880
      bytes, and a JPEG of exactly that size is accepted. */
  lemma DefaultLimit()
    ensures DefaultMaxSize == 5242880
    ensures Validate(SelectedFile(5242880, "image/jpeg"), DefaultMaxSize) == Accept
  {
    assert OccursAt("image/jpeg", "image", 0);
  }
}

=== FILE: socket_runs.dfy ===
/** Properties of the socket service over sequences of inbound events:
    the linear backoff schedule, the authentication-error short-circuit,
    the self-echo filter and in-order appends (src/services/socketService.ts). */
module SocketRuns {
  import opened Common
  import opened ChatTypes
  import ChatSlice
  import opened SocketService

  /** Delivers `events` in transport order, collecting the effects. */
  function Run(s: Service, events: seq<Inbound>): (r: Step)
    ensures r.service.socket.Some? <==> s.socket.Some?
    ensures r.service.handlers == s.handlers && r.service.currentUserId == s.currentUserId
    decreases |events|
  {
    if events == [] then Step(s, [])
    else
      var first := Deliver(s, events[0]);
      var rest := Run(first.service, events[1..]);
      Step(rest.service, first.effects + rest.effects)
  }

  /** The delays of the retries a log schedules, in order. */
  function RetryDelays(effects: seq<Effect>): seq<nat>
    decreases |effects|
  {
    if effects == [] then []
    else (if effects[0].ScheduleRetry? then [effects[0].delay] else []) + RetryDelays(effects[1..])
  }

  lemma {:induction false} RetryDelaysAppend(a: seq<Effect>, b: seq<Effect>)
    ensures RetryDelays(a + b) == RetryDelays(a) + RetryDelays(b)
    decreases |a|
  {
    if a != [] {
      assert (a + b)[0] == a[0];
      assert (a + b)[1..] == a[1..] + b;
      RetryDelaysAppend(a[1..], b);
    } else {
      assert a + b == b;
    }
  }

  /** A connect error that is not an authentication failure. */
  predicate IsTransientError(ev: Inbound)
  {
    ev.ConnectError? && !IsAuthenticationError(ev.errorMessage)
  }

  /** How many of `errors` transient errors, starting from `attempts`, still
      fall within the maximum. */
  function RetriesLeft(attempts: nat, errors: nat): nat
  {
    if attempts >= MaxReconnectAttempts then 0
    else if errors <= MaxReconnectAttempts - attempts then errors
    else MaxReconnectAttempts - attempts
  }

  /** Backoff is linear: a run of transient errors counts one attempt each,
      and the n-th attempt (n = attempts + 1, attempts + 2, ...) is retried
      after exactly 1000 * n ms, until the count passes 5; after that no
      retry is scheduled. */
  lemma {:induction false} TransientErrorsBackOffLinearly(s: Service, events: seq<Inbound>)
    requires s.socket.Some?
    requires forall i :: 0 <= i < |events| ==> IsTransientError(events[i])
    ensures Run(s, events).service.attempts == s.attempts + |events|
    ensures RetryDelays(Run(s, events).effects)
         == seq(RetriesLeft(s.attempts, |events|), i => ReconnectTimeout * (s.attempts + 1 + i))
    decreases |events|
  {
    if events != [] {
      DeliverTransient(s, events[0]);
      var first := Deliver(s, events[0]);
      var tailEvents := events[1..];
      assert forall i :: 0 <= i < |tailEvents| ==> IsTransientError(tailEvents[i]) by {
        forall i | 0 <= i < |tailEvents| ensures IsTransientError(tailEvents[i]) {
          assert tailEvents[i] == events[i + 1];
        }
      }
      var rest := Run(first.service, tailEvents);
      TransientErrorsBackOffLinearly(first.service, tailEvents);
      RetryDelaysAppend(first.effects, rest.effects);
      BackoffScheduleShift(s.attempts, |events|);
    }
  }

  /** The schedule of k retries from attempt count a is the first retry,
      if it is still within the maximum, followed by the schedule of k - 1
      retries from a + 1. */
  lemma BackoffScheduleShift(a: nat, k: nat)
    requires k > 0
    ensures seq(RetriesLeft(a, k), i => ReconnectTimeout * (a + 1 + i))
         == (if a + 1 <= MaxReconnectAttempts then [ReconnectTimeout * (a + 1)] else [])
            + seq(RetriesLeft(a + 1, k - 1), i => ReconnectTimeout * (a + 2 + i))
  {
  }

  lemma DeliverTransient(s: Service, ev: Inbound)
    requires s.socket.Some? && IsTransientError(ev)
    ensures Deliver(s, ev).service == s.(attempts := s.attempts + 1)
    ensures RetryDelays(Deliver(s, ev).effects)
         == if s.attempts + 1 <= MaxReconnectAttempts then [ReconnectTimeout * (s.attempts + 1)] else []
  {
  }

  /** Once the counter is at the maximum, no event short of a successful
      "connect" schedules a retry, and the counter stays at or above it. */
  lemma {:induction false} ExhaustedCounterNeverRetries(s: Service, events: seq<Inbound>)
    requires s.attempts >= MaxReconnectAttempts
    requires forall i :: 0 <= i < |events| ==> !events[i].Connected?
    ensures RetryDelays(Run(s, events).effects) == []
    ensures Run(s, events).service.attempts >= MaxReconnectAttempts
    decreases |events|
  {
    if events != [] {
      var first := Deliver(s, events[0]);
      assert first.service.attempts >= MaxReconnectAttempts;
      assert RetryDelays(first.effects) == [];
      ExhaustedCounterNeverRetries(first.service, events[1..]);
      RetryDelaysAppend(first.effects, Run(first.service, events[1..]).effects);
    }
  }

  /** An authentication error ends retrying: after it, whatever connect
      errors or other events follow, no retry is scheduled until a
      successful "connect". */
  lemma AuthErrorEndsRetries(s: Service, message: string, events: seq<Inbound>)
    requires s.socket.Some? && IsAuthenticationError(message)
    requires forall i :: 0 <= i < |events| ==> !events[i].Connected?
    ensures RetryDelays(Run(s, [ConnectError(message)] + events).effects) == []
  {
    var all := [ConnectError(message)] + events;
    assert all[0] == ConnectError(message);
    assert all[1..] == events;
    var first := Deliver(s, all[0]);
    ExhaustedCounterNeverRetries(first.service, events);
    RetryDelaysAppend(first.effects, Run(first.service, events).effects);
  }

  /** The scenario of five generic connect errors on a fresh socket: retries
      after 1, 2, 3, 4 and 5 seconds, then a sixth error schedules nothing. */
  lemma FiveRetriesThenNone(s: Service, message: string)
    requires s.socket.Some? && s.attempts == 0 && !IsAuthenticationError(message)
    ensures var five := seq(5, i => ConnectError(message));
      && RetryDelays(Run(s, five).effects) == [1000, 2000, 3000, 4000, 5000]
      && Run(s, five).service.attempts == 5
      && RetryDelays(Run(s, five + [ConnectError(message)]).effects) == [1000, 2000, 3000, 4000, 5000]
  {
    var five := seq(5, i => ConnectError(message));
    var six := five + [ConnectError(message)];
    TransientErrorsBackOffLinearly(s, five);
    TransientErrorsBackOffLinearly(s, six);
    assert RetriesLeft(0, 5) == 5 && RetriesLeft(0, 6) == 5;
  }

  /** A "newMessage" or "message" event whose sender is not the current user. */
  predicate IsForeignMessage(s: Service, ev: Inbound)
  {
    (ev.NewMessage? || ev.PlainMessage?) && !IsSelfEcho(s, ev.message)
  }

  /** The messages carried by the message events of a run, in order. */
  function Payloads(events: seq<Inbound>): seq<Message>
    decreases |events|
  {
    if events == [] then []
    else if events[0].NewMessage? || events[0].PlainMessage? then [events[0].message] + Payloads(events[1..])
    else Payloads(events[1..])
  }

  /** Messages from other users are appended in delivery order, each one
      every time it is delivered (no de-duplication); nothing else changes
      and nothing is emitted. */
  lemma {:induction false} ForeignMessagesAppendInOrder(s: Service, events: seq<Inbound>)
    requires s.socket.Some?
    requires forall i :: 0 <= i < |events| ==> IsForeignMessage(s, events[i])
    ensures Run(s, events).service == s.(chat := s.chat.(messages := s.chat.messages + Payloads(events)))
    ensures Run(s, events).effects == []
    decreases |events|
  {
    if events == [] {
      assert s.chat.messages + Payloads(events) == s.chat.messages;
    } else {
      var m := events[0].message;
      var next := s.(chat := s.chat.(messages := s.chat.messages + [m]));
      DeliverForeign(s, events[0]);
      var rest := events[1..];
      assert forall i :: 0 <= i < |rest| ==> IsForeignMessage(next, rest[i]) by {
        forall i | 0 <= i < |rest| ensures IsForeignMessage(next, rest[i]) {
          assert rest[i] == events[i + 1];
        }
      }
      ForeignMessagesAppendInOrder(next, rest);
      assert Payloads(events) == [m] + Payloads(rest);
      assert s.chat.messages + [m] + Payloads(rest) == s.chat.messages + Payloads(events);
    }
  }

  lemma DeliverForeign(s: Service, ev: Inbound)
    requires s.socket.Some? && IsForeignMessage(s, ev)
    ensures Deliver(s, ev) == Step(s.(chat := s.chat.(messages := s.chat.messages + [ev.message])), [])
  {
  }

  /** One "onlineStatus" event per user, each marking that user online. */
  function OnlineEvents(users: seq<string>): (r: seq<Inbound>)
    ensures |r| == |users|
    ensures forall i :: 0 <= i < |users| ==> r[i] == OnlineStatusEvent(users[i], true)
    decreases |users|
  {
    if users == [] then [] else [OnlineStatusEvent(users[0], true)] + OnlineEvents(users[1..])
  }

  /** An "onlineUsers" event leaves the store exactly as the same users'
      "onlineStatus" events, delivered one by one in list order, would. */
  lemma OnlineUsersIsStatusEvents(s: Service, users: seq<string>)
    requires s.socket.Some?
    ensures Run(s, OnlineEvents(users)) == Run(s, [OnlineUsers(users)])
  {
    RunOne(s, OnlineUsers(users));
    assert Deliver(s, OnlineUsers(users)) == Step(s.(chat := MarkAllOnline(s.chat, users)), []);
    StatusEventsMarkAllOnline(s, users);
  }

  lemma RunOne(s: Service, ev: Inbound)
    ensures Run(s, [ev]) == Deliver(s, ev)
  {
    assert [ev][1..] == [];
    assert Deliver(s, ev).effects + [] == Deliver(s, ev).effects;
  }

  lemma {:induction false} StatusEventsMarkAllOnline(s: Service, users: seq<string>)
    requires s.socket.Some?
    ensures Run(s, OnlineEvents(users)) == Step(s.(chat := MarkAllOnline(s.chat, users)), [])
    decreases |users|
  {
    if users != [] {
      var events := OnlineEvents(users);
      var next := s.(chat := ChatSlice.SetOnlineStatus(s.chat, users[0], true));
      assert Deliver(s, events[0]) == Step(next, []);
      assert events[1..] == OnlineEvents(users[1..]);
      StatusEventsMarkAllOnline(next, users[1..]);
    }
  }

  /** A "messagesLoaded" event replaces the list with the history, and
      messages from other users that follow are appended after it. */
  lemma HistoryThenLiveMessages(s: Service, history: seq<Message>, events: seq<Inbound>)
    requires s.socket.Some?
    requires forall i :: 0 <= i < |events| ==> IsForeignMessage(s, events[i])
    ensures Run(s, [MessagesLoaded(history)] + events).service.chat.messages == history + Payloads(events)
    ensures Run(s, [MessagesLoaded(history)] + events).effects == []
  {
    var all := [MessagesLoaded(history)] + events;
    assert all[0] == MessagesLoaded(history) && all[1..] == events;
    var loaded := s.(chat := s.chat.(messages := history));
    assert Deliver(s, all[0]) == Step(loaded, []);
    ForeignMessagesAppendInOrder(loaded, events);
  }

  /** Echoes of the current user's own messages never touch the store. */
  lemma {:induction false} SelfEchoesChangeNothing(s: Service, events: seq<Inbound>)
    requires forall i :: 0 <= i < |events| ==>
      (events[i].NewMessage? || events[i].PlainMessage?) && IsSelfEcho(s, events[i].message)
    ensures Run(s, events).service == s
    ensures Run(s, events).effects == []
    decreases |events|
  {
    if events != [] {
      SelfEchoesChangeNothing(Deliver(s, events[0]).service, events[1..]);
    }
  }

  /** The redelivery scenario: the same foreign message delivered twice is
      listed twice. */
  lemma RedeliveryIsNotDeduplicated(s: Service, m: Message)
    requires s.socket.Some? && s.chat.messages == [] && !IsSelfEcho(s, m)
    ensures Run(s, [NewMessage(m), NewMessage(m)]).service.chat.messages == [m, m]
  {
    var events := [NewMessage(m), NewMessage(m)];
    ForeignMessagesAppendInOrder(s, events);
    var one := [NewMessage(m)];
    assert events[1..] == one && one[1..] == [];
    assert Payloads(one) == [m] + Payloads([]);
    assert Payloads(events) == [m] + Payloads(one);
  }

  /** A "call" event reaches at most one handler: the one registered under
      the caller, never a handler registered only for another peer. */
  lemma CallReachesOnlyTheCallersHandler(s: Service, data: CallData)
    ensures forall e :: e in Deliver(s, CallEvent(data)).effects ==>
      e.Invoke? && e.data == data && data.from in s.handlers && e.handler == s.handlers[data.from]
    ensures |Deliver(s, CallEvent(data)).effects| <= 1
  {
  }

  /** After `disconnect`, no stray event has any effect; and when a socket was
      held, no previously registered handler is invoked on a socket opened
      later until handlers are registered again. (Without a socket,
      `disconnect` keeps the registry: handlers registered before the first
      `connect` survive it.) */
  lemma DisconnectSilencesHandlers(s: Service, token: string, events: seq<Inbound>)
    ensures Run(Disconnect(s).service, events).effects == []
    ensures s.socket.Some? ==>
      forall e :: e in Run(Connect(Disconnect(s).service, token).service, events).effects ==> !e.Invoke?
  {
    var d := Disconnect(s).service;
    NoSocketNoEffects(d, events);
    if s.socket.Some? {
      NoHandlersNoInvocations(Connect(d, token).service, events);
    }
  }

  lemma {:induction false} NoSocketNoEffects(s: Service, events: seq<Inbound>)
    requires s.socket.None?
    ensures Run(s, events) == Step(s, [])
    decreases |events|
  {
    if events != [] {
      NoSocketNoEffects(s, events[1..]);
    }
  }

  lemma {:induction false} NoHandlersNoInvocations(s: Service, events: seq<Inbound>)
    requires s.handlers == map[]
    ensures forall e :: e in Run(s, events).effects ==> !e.Invoke?
    decreases |events|
  {
    if events != [] {
      var first := Deliver(s, events[0]);
      NoHandlersNoInvocations(first.service, events[1..]);
    }
  }

  /** `disconnect` is idempotent. */
  lemma DisconnectIdempotent(s: Service)
    ensures Disconnect(Disconnect(s).service) == Step(Disconnect(s).service, [])
  {
  }

  /** Connecting twice opens one socket: once "connect" has been received,
      a second `connect` opens nothing. */
  lemma SecondConnectOpensNothing(s: Service, first: string, second: string)
    requires first != "" && !IsConnected(s)
    ensures var held := Connect(s, first).service;
      Connect(Deliver(held, Connected).service, second).effects == []
  {
  }
}

=== FILE: socket_service.dfy ===
/** The client's socket singleton (src/services/socketService.ts): the
    connect guard and bearer formatting, reconnect bookkeeping, the call
    handler registry, routing of inbound events into the chat store, and the
    outbound intents. Every transport event and every API call is a pure
    transition returning the new service state and the effects it asks of
    the transport, the timer and the registered handlers. */
module SocketService {
  import opened Common
  import opened ChatTypes
  import ChatSlice

  const MaxReconnectAttempts: nat := 5
  const ReconnectTimeout: nat := 1000
  const ServerDisconnect: string := "io server disconnect"
  const AuthenticationError: string := "Authentication error"

  /** Names a registered call handler (a closure in the source). */
  type HandlerId = nat

  /** The held transport: the credential it was opened with and socket.io's
      `connected` flag. */
  datatype Socket = Socket(credential: string, connected: bool)

  /** The service and the store it dispatches into. `currentUserId` is the
      auth store's `currentUser?._id`, read when a message arrives. */
  datatype Service = Service(
    socket: Option<Socket>,
    attempts: nat,
    handlers: map<string, HandlerId>,
    chat: ChatSlice.ChatState,
    currentUserId: Option<string>)

  /** The payloads the client emits, one per outbound event name. */
  datatype Outbound =
    | SendMessagePayload(content: string, receiverId: Option<string>, groupId: Option<string>,
                         messageKind: MessageKind, fileUrl: Option<string>)
    | TypingPayload(isTyping: bool, chatId: string)
    | JoinGroupPayload(group: string)
    | LeaveGroupPayload(group: string)
    | CallPayload(receiverId: Option<string>, groupId: Option<string>, kind: CallKind, status: CallStatus)
    | LoadMessagesPayload(receiverId: Option<string>, groupId: Option<string>)

  /** What a transition asks of the outside world. */
  datatype Effect =
    | Open(credential: string)      // io(url, { auth: { token } })
    | Close                         // socket.disconnect()
    | Reconnect                     // socket.connect(), now
    | ScheduleRetry(delay: nat)     // setTimeout(() => socket?.connect(), delay)
    | Emit(payload: Outbound)
    | Invoke(handler: HandlerId, data: CallData)

  datatype Step = Step(service: Service, effects: seq<Effect>)

  /** The instance as constructed: no socket, no attempts, no handlers. */
  function Fresh(chat: ChatSlice.ChatState, currentUserId: Option<string>): (r: Service)
    ensures r.socket.None? && r.attempts == 0 && r.handlers == map[]
    ensures r.chat == chat && r.currentUserId == currentUserId
  {
    Service(None, 0, map[], chat, currentUserId)
  }

  /** `isConnected`. */
  predicate IsConnected(s: Service)
  {
    s.socket.Some? && s.socket.value.connected
  }

  /** `token.replace(/^Bearer\s+/i, "")`: a leading "Bearer" in any letter
      case followed by at least one white-space character is removed
      together with all the white space that follows it. */
  function StripBearer(token: string): (r: string)
    ensures |r| <= |token| && r == token[|token| - |r|..]
    ensures r != token ==> |r| <= |token| - 7 && (r == [] || !IsWhitespace(r[0]))
  {
    if |token| > 6 && EqualsIgnoringCase(token[..6], "Bearer") && IsWhitespace(token[6])
    then TrimStart(token[6..])
    else token
  }

  /** The credential sent in the handshake. */
  function FormatToken(token: string): (r: string)
    ensures StartsWith(r, "Bearer ")
    ensures |r| <= |token| + 7
  {
    "Bearer " + StripBearer(token)
  }

  /** Whatever "Bearer" prefix and white space a token carries, the credential
      is "Bearer " followed by the rest. */
  lemma FormatTokenStripsPrefix(bearer: string, space: string, rest: string)
    requires EqualsIgnoringCase(bearer, "Bearer")
    requires |space| > 0 && AllWhitespace(space)
    requires rest == [] || !IsWhitespace(rest[0])
    ensures FormatToken(bearer + space + rest) == "Bearer " + rest
  {
    var t := bearer + space + rest;
    assert t[..6] == bearer;
    assert t[6] == space[0];
    assert t[6..] == space + rest;
    TrimStartSkipsWhitespace(space, rest);
  }

  lemma {:induction false} TrimStartSkipsWhitespace(space: string, rest: string)
    requires AllWhitespace(space)
    requires rest == [] || !IsWhitespace(rest[0])
    ensures TrimStart(space + rest) == rest
    decreases |space|
  {
    if space != [] {
      assert (space + rest)[1..] == space[1..] + rest;
      TrimStartSkipsHead(space + rest);
      TrimStartSkipsWhitespace(space[1..], rest);
    } else {
      assert space + rest == rest;
    }
  }

  /** The converse: a token that does not start with "Bearer" (any letter
      case) followed by white space is sent whole behind "Bearer ". */
  lemma FormatTokenKeepsUnprefixed(token: string)
    requires |token| <= 6 || !EqualsIgnoringCase(token[..6], "Bearer") || !IsWhitespace(token[6])
    ensures FormatToken(token) == "Bearer " + token
  {
  }

  /** Formatting an already formatted credential strips the "Bearer " and the
      white space after it. */
  lemma ReformatDropsLeadingSpace(body: string)
    ensures FormatToken("Bearer " + body) == "Bearer " + TrimStart(body)
  {
    var t := "Bearer " + body;
    assert t[..6] == "Bearer";
    assert EqualsIgnoringCase(t[..6], "Bearer");
    assert t[6] == ' ';
    var spaced := t[6..];
    assert spaced[0] == ' ' && spaced[1..] == body;
    TrimStartSkipsHead(spaced);
  }

  /** Formatting is idempotent on a credential exactly when its body (what
      follows "Bearer ") does not start with white space. */
  lemma FormatTokenIdempotentIff(token: string)
    ensures var f := FormatToken(token); var body := f[7..];
      FormatToken(f) == f <==> (body == [] || !IsWhitespace(body[0]))
  {
    var f := FormatToken(token);
    var body := f[7..];
    assert f == "Bearer " + body;
    ReformatDropsLeadingSpace(body);
  }

  /** Formatting twice reaches a fixed point. */
  lemma FormatTokenSettles(token: string)
    ensures FormatToken(FormatToken(FormatToken(token))) == FormatToken(FormatToken(token))
  {
    var body := FormatToken(token)[7..];
    assert FormatToken(token) == "Bearer " + body;
    ReformatDropsLeadingSpace(body);
    FormatTokenIdempotentIff(FormatToken(token));
    assert FormatToken(FormatToken(token))[7..] == TrimStart(body);
  }

  /** `connect`: nothing happens for an empty token or while connected;
      otherwise a socket is opened with the formatted credential (replacing
      a held socket that is not connected). */
  function Connect(s: Service, token: string): (r: Step)
    ensures token == "" || IsConnected(s) ==> r == Step(s, [])
    ensures token != "" && !IsConnected(s) ==>
      && r.service.socket.Some?
      && !r.service.socket.value.connected
      && r.service.socket.value.credential == FormatToken(token)
      && StartsWith(r.service.socket.value.credential, "Bearer ")
      && r.effects == [Open(r.service.socket.value.credential)]
      && r.service.attempts == s.attempts && r.service.handlers == s.handlers
      && r.service.chat == s.chat && r.service.currentUserId == s.currentUserId
  {
    if token == "" || IsConnected(s) then Step(s, [])
    else
      var credential := FormatToken(token);
      Step(s.(socket := Some(Socket(credential, false))), [Open(credential)])
  }

  /** `disconnect`: with a socket, close it, forget it, clear every call
      handler and reset the attempt counter; without one, nothing. */
  function Disconnect(s: Service): (r: Step)
    ensures s.socket.None? ==> r == Step(s, [])
    ensures s.socket.Some? ==>
      && r.service.socket.None? && r.service.handlers == map[] && r.service.attempts == 0
      && r.effects == [Close]
      && r.service.chat == s.chat && r.service.currentUserId == s.currentUserId
  {
    if s.socket.Some? then Step(s.(socket := None, handlers := map[], attempts := 0), [Close])
    else Step(s, [])
  }

  /** `registerCallHandler`: the entry for `peer` is overwritten. */
  function RegisterCallHandler(s: Service, peer: string, handler: HandlerId): (r: Service)
    ensures peer in r.handlers && r.handlers[peer] == handler
    ensures forall p :: p != peer ==> (p in r.handlers <==> p in s.handlers)
    ensures forall p :: p != peer && p in s.handlers ==> r.handlers[p] == s.handlers[p]
    ensures r.socket == s.socket && r.attempts == s.attempts && r.chat == s.chat
    ensures r.currentUserId == s.currentUserId
  {
    s.(handlers := s.handlers[peer := handler])
  }

  /** `unregisterCallHandler`: removes `peer`'s entry, if any, and no other. */
  function UnregisterCallHandler(s: Service, peer: string): (r: Service)
    ensures peer !in r.handlers
    ensures forall p :: p != peer ==> (p in r.handlers <==> p in s.handlers)
    ensures forall p :: p != peer && p in s.handlers ==> r.handlers[p] == s.handlers[p]
    ensures r.socket == s.socket && r.attempts == s.attempts && r.chat == s.chat
    ensures r.currentUserId == s.currentUserId
  {
    s.(handlers := s.handlers - {peer})
  }

  // ---- inbound events ----

  /** The events the service listens to, by event name. */
  datatype Inbound =
    | Connected                                   // "connect"
    | Disconnected(reason: string)                // "disconnect"
    | ConnectError(errorMessage: string)          // "connect_error"
    | SocketError                                 // "error"
    | NewMessage(message: Message)                // "newMessage"
    | PlainMessage(message: Message)              // "message"
    | TypingEvent(userId: string, isTyping: bool) // "typing"
    | OnlineStatusEvent(userId: string, isOnline: bool) // "onlineStatus"
    | OnlineUsers(users: seq<string>)             // "onlineUsers"
    | UserJoined(userId: string, groupId: string) // "userJoined"
    | UserLeft(userId: string, groupId: string)   // "userLeft"
    | CallEvent(data: CallData)                   // "call"
    | MessagesLoaded(messages: seq<Message>)      // "messagesLoaded"

  /** "connect": the socket is up and the attempt counter restarts. */
  function OnConnect(s: Service): (r: Step)
    requires s.socket.Some?
    ensures IsConnected(r.service) && r.service.attempts == 0 && r.effects == []
    ensures r.service.socket.value.credential == s.socket.value.credential
    ensures r.service.handlers == s.handlers && r.service.chat == s.chat
    ensures r.service.currentUserId == s.currentUserId
  {
    Step(s.(socket := Some(s.socket.value.(connected := true)), attempts := 0), [])
  }

  /** "disconnect": the socket is down; only a server-initiated disconnect
      asks for an immediate reconnect. */
  function OnDisconnect(s: Service, reason: string): (r: Step)
    requires s.socket.Some?
    ensures r.service.socket.Some? && !IsConnected(r.service)
    ensures r.service.socket.value.credential == s.socket.value.credential
    ensures r.effects == [Reconnect] <==> reason == ServerDisconnect
    ensures reason != ServerDisconnect ==> r.effects == []
    ensures r.service.attempts == s.attempts && r.service.handlers == s.handlers
    ensures r.service.chat == s.chat && r.service.currentUserId == s.currentUserId
  {
    Step(s.(socket := Some(s.socket.value.(connected := false))),
         if reason == ServerDisconnect then [Reconnect] else [])
  }

  /** The connect error is the server's authentication refusal: its
      message contains "Authentication error". */
  predicate IsAuthenticationError(message: string)
  {
    Contains(message, AuthenticationError)
  }

  /** "connect_error": an authentication failure pins the counter at the
      maximum and schedules nothing; any other error counts one more attempt
      and schedules a retry after `1000 * attempts` ms while the count is
      within the maximum. */
  function OnConnectError(s: Service, message: string): (r: Step)
    ensures IsAuthenticationError(message) ==>
      r.service.attempts == MaxReconnectAttempts && r.effects == []
    ensures !IsAuthenticationError(message) ==>
      && r.service.attempts == s.attempts + 1
      && (r.service.attempts <= MaxReconnectAttempts ==> r.effects == [ScheduleRetry(ReconnectTimeout * r.service.attempts)])
      && (r.service.attempts > MaxReconnectAttempts ==> r.effects == [])
    ensures r.service == s.(attempts := r.service.attempts)
  {
    if IsAuthenticationError(message) then
      Step(s.(attempts := MaxReconnectAttempts), [])
    else
      var n := s.attempts + 1;
      Step(s.(attempts := n), if n <= MaxReconnectAttempts then [ScheduleRetry(ReconnectTimeout * n)] else [])
  }

  /** The message is the current user's own, echoed back by the server. */
  predicate IsSelfEcho(s: Service, m: Message)
  {
    s.currentUserId == Some(m.sender.id)
  }

  /** "newMessage" and "message": append unless the sender is the current
      user; with no current user every message is appended. */
  function OnIncomingMessage(s: Service, m: Message): (r: Step)
    ensures !IsSelfEcho(s, m) ==>
      && r.service.chat.messages == s.chat.messages + [m]
      && ChatSlice.OnlyChanges(s.chat, r.service.chat, {ChatSlice.MessagesField})
    ensures IsSelfEcho(s, m) ==> r.service.chat == s.chat
    ensures r.service == s.(chat := r.service.chat) && r.effects == []
  {
    if IsSelfEcho(s, m) then Step(s, [])
    else Step(s.(chat := ChatSlice.AddMessage(s.chat, m)), [])
  }

  /** "onlineUsers": each listed user, in order, is marked online. */
  function MarkAllOnline(chat: ChatSlice.ChatState, users: seq<string>): (r: ChatSlice.ChatState)
    ensures forall u :: u in users ==> u in r.onlineStatus && r.onlineStatus[u]
    ensures forall k :: k !in users ==> (k in r.onlineStatus <==> k in chat.onlineStatus)
    ensures forall k :: k !in users && k in chat.onlineStatus ==> r.onlineStatus[k] == chat.onlineStatus[k]
    ensures ChatSlice.OnlyChanges(chat, r, {ChatSlice.OnlineField})
    decreases |users|
  {
    if users == [] then chat
    else
      var next := ChatSlice.SetOnlineStatus(chat, users[0], true);
      var r := MarkAllOnline(next, users[1..]);
      assert forall u :: u in users ==> u == users[0] || u in users[1..];
      r
  }

  /** "call": only the handler registered for the caller is invoked, and none
      when the caller has no entry. */
  function OnCall(s: Service, data: CallData): (r: Step)
    ensures data.from in s.handlers ==> r.effects == [Invoke(s.handlers[data.from], data)]
    ensures data.from !in s.handlers ==> r.effects == []
    ensures r.service == s
  {
    if data.from in s.handlers then Step(s, [Invoke(s.handlers[data.from], data)])
    else Step(s, [])
  }

  /** Delivers one event to the listeners attached to the held socket; with
      no socket there is no listener and nothing happens. */
  function Deliver(s: Service, ev: Inbound): (r: Step)
    ensures s.socket.None? ==> r == Step(s, [])
    ensures r.service.socket.Some? <==> s.socket.Some?
    ensures r.service.handlers == s.handlers && r.service.currentUserId == s.currentUserId
  {
    if s.socket.None? then Step(s, [])
    else
      match ev
      case Connected => OnConnect(s)
      case Disconnected(reason) => OnDisconnect(s, reason)
      case ConnectError(message) => OnConnectError(s, message)
      case SocketError => Step(s, [])
      case NewMessage(m) => OnIncomingMessage(s, m)
      case PlainMessage(m) => OnIncomingMessage(s, m)
      case TypingEvent(userId, isTyping) => Step(s.(chat := ChatSlice.SetTypingStatus(s.chat, userId, isTyping)), [])
      case OnlineStatusEvent(userId, isOnline) => Step(s.(chat := ChatSlice.SetOnlineStatus(s.chat, userId, isOnline)), [])
      case OnlineUsers(users) => Step(s.(chat := MarkAllOnline(s.chat, users)), [])
      case UserJoined(_, _) => Step(s, [])
      case UserLeft(_, _) => Step(s, [])
      case CallEvent(data) => OnCall(s, data)
      case MessagesLoaded(messages) => Step(s.(chat := ChatSlice.SetMessages(s.chat, messages)), [])
  }

  /** Each event reaches the one listener registered for its name: the
      connection events go to their handlers; "typing" and "onlineStatus"
      write one entry of their map; "onlineUsers" marks every listed user
      online; "messagesLoaded" replaces the message list; and the events
      that are only logged change nothing. */
  lemma DeliverRoutes(s: Service, ev: Inbound)
    ensures s.socket.Some? && ev.Connected? ==> Deliver(s, ev) == OnConnect(s)
    ensures s.socket.Some? && ev.Disconnected? ==> Deliver(s, ev) == OnDisconnect(s, ev.reason)
    ensures s.socket.Some? && ev.ConnectError? ==> Deliver(s, ev) == OnConnectError(s, ev.errorMessage)
    ensures s.socket.Some? && (ev.NewMessage? || ev.PlainMessage?) ==> Deliver(s, ev) == OnIncomingMessage(s, ev.message)
    ensures s.socket.Some? && ev.CallEvent? ==> Deliver(s, ev) == OnCall(s, ev.data)
    ensures s.socket.Some? && ev.TypingEvent? ==>
      var r := Deliver(s, ev);
      && r.effects == [] && r.service == s.(chat := r.service.chat)
      && ChatSlice.UpdatedAt(s.chat.typingStatus, r.service.chat.typingStatus, ev.userId, ev.isTyping)
      && ChatSlice.OnlyChanges(s.chat, r.service.chat, {ChatSlice.TypingField})
    ensures s.socket.Some? && ev.OnlineStatusEvent? ==>
      var r := Deliver(s, ev);
      && r.effects == [] && r.service == s.(chat := r.service.chat)
      && ChatSlice.UpdatedAt(s.chat.onlineStatus, r.service.chat.onlineStatus, ev.userId, ev.isOnline)
      && ChatSlice.OnlyChanges(s.chat, r.service.chat, {ChatSlice.OnlineField})
    ensures s.socket.Some? && ev.OnlineUsers? ==>
      var r := Deliver(s, ev);
      && r.effects == [] && r.service == s.(chat := r.service.chat)
      && r.service.chat == MarkAllOnline(s.chat, ev.users)
      && (forall u :: u in ev.users ==> u in r.service.chat.onlineStatus && r.service.chat.onlineStatus[u])
      && ChatSlice.OnlyChanges(s.chat, r.service.chat, {ChatSlice.OnlineField})
    ensures s.socket.Some? && ev.MessagesLoaded? ==>
      var r := Deliver(s, ev);
      && r.effects == [] && r.service == s.(chat := r.service.chat)
      && r.service.chat.messages == ev.messages
      && ChatSlice.OnlyChanges(s.chat, r.service.chat, {ChatSlice.MessagesField})
    ensures ev.SocketError? || ev.UserJoined? || ev.UserLeft? ==> Deliver(s, ev) == Step(s, [])
  {
  }

  // ---- outbound intents ----

  /** The common guard of every intent but `sendMessage`: emit only while
      connected, and never change the service. */
  function EmitIfConnected(s: Service, payload: Outbound): (r: Step)
    ensures r.service == s
    ensures r.effects != [] <==> IsConnected(s)
    ensures forall e :: e in r.effects ==> e == Emit(payload)
    ensures |r.effects| <= 1
  {
    if IsConnected(s) then Step(s, [Emit(payload)]) else Step(s, [])
  }

  /** `sendMessage`: needs a socket, connected or not; the message is
      appended locally before it is emitted, addressed by its receiver and
      group fields. */
  function SendMessage(s: Service, m: Message): (r: Step)
    ensures s.socket.None? ==> r == Step(s, [])
    ensures s.socket.Some? ==>
      && r.service.chat.messages == s.chat.messages + [m]
      && ChatSlice.OnlyChanges(s.chat, r.service.chat, {ChatSlice.MessagesField})
      && r.service == s.(chat := r.service.chat)
      && r.effects == [Emit(SendMessagePayload(m.content, m.receiver, m.group, m.kind, m.fileUrl))]
  {
    if s.socket.None? then Step(s, [])
    else
      var local := ChatSlice.AddMessage(s.chat, m);
      Step(s.(chat := local), [Emit(SendMessagePayload(m.content, m.receiver, m.group, m.kind, m.fileUrl))])
  }

  /** `sendTypingStatus`. */
  function SendTypingStatus(s: Service, isTyping: bool, chatId: string): (r: Step)
    ensures r.service == s
    ensures r.effects == (if IsConnected(s) then [Emit(TypingPayload(isTyping, chatId))] else [])
  {
    EmitIfConnected(s, TypingPayload(isTyping, chatId))
  }

  /** `joinGroup`. */
  function JoinGroup(s: Service, groupId: string): (r: Step)
    ensures r.service == s
    ensures r.effects == (if IsConnected(s) then [Emit(JoinGroupPayload(groupId))] else [])
  {
    EmitIfConnected(s, JoinGroupPayload(groupId))
  }

  /** `leaveGroup`. */
  function LeaveGroup(s: Service, groupId: string): (r: Step)
    ensures r.service == s
    ensures r.effects == (if IsConnected(s) then [Emit(LeaveGroupPayload(groupId))] else [])
  {
    EmitIfConnected(s, LeaveGroupPayload(groupId))
  }

  /** `startCall`: a "call" event with status ringing and no timestamp. */
  function StartCall(s: Service, receiverId: Option<string>, groupId: Option<string>, kind: CallKind): (r: Step)
    ensures r.service == s
    ensures r.effects == (if IsConnected(s) then [Emit(CallPayload(receiverId, groupId, kind, Ringing))] else [])
  {
    EmitIfConnected(s, CallPayload(receiverId, groupId, kind, Ringing))
  }

  /** `endCall`: a "call" event with status ended. */
  function EndCall(s: Service, receiverId: Option<string>, groupId: Option<string>, kind: CallKind): (r: Step)
    ensures r.service == s
    ensures r.effects == (if IsConnected(s) then [Emit(CallPayload(receiverId, groupId, kind, Ended))] else [])
  {
    EmitIfConnected(s, CallPayload(receiverId, groupId, kind, Ended))
  }

  /** `loadMessages`: asks for history; the answer arrives later as a
      "messagesLoaded" event. */
  function LoadMessages(s: Service, receiverId: Option<string>, groupId: Option<string>): (r: Step)
    ensures r.service == s
    ensures r.effects == (if IsConnected(s) then [Emit(LoadMessagesPayload(receiverId, groupId))] else [])
  {
    EmitIfConnected(s, LoadMessagesPayload(receiverId, groupId))
  }

  /** Every outbound API call. */
  datatype Intent =
    | SendMessageIntent(message: Message)
    | TypingIntent(isTyping: bool, chatId: string)
    | JoinGroupIntent(group: string)
    | LeaveGroupIntent(group: string)
    | StartCallIntent(receiverId: Option<string>, groupId: Option<string>, kind: CallKind)
    | EndCallIntent(receiverId: Option<string>, groupId: Option<string>, kind: CallKind)
    | LoadMessagesIntent(receiverId: Option<string>, groupId: Option<string>)

  function Perform(s: Service, intent: Intent): Step
  {
    match intent
    case SendMessageIntent(m) => SendMessage(s, m)
    case TypingIntent(isTyping, chatId) => SendTypingStatus(s, isTyping, chatId)
    case JoinGroupIntent(g) => JoinGroup(s, g)
    case LeaveGroupIntent(g) => LeaveGroup(s, g)
    case StartCallIntent(rcv, g, kind) => StartCall(s, rcv, g, kind)
    case EndCallIntent(rcv, g, kind) => EndCall(s, rcv, g, kind)
    case LoadMessagesIntent(rcv, g) => LoadMessages(s, rcv, g)
  }

  /** While not connected an intent emits nothing and changes nothing; the
      one exception is `sendMessage` on a held but unconnected socket, which
      appends locally and emits. */
  lemma OfflineIntentsAreDropped(s: Service, intent: Intent)
    requires !IsConnected(s)
    ensures !intent.SendMessageIntent? || s.socket.None? ==> Perform(s, intent) == Step(s, [])
    ensures intent.SendMessageIntent? && s.socket.Some? ==>
      |Perform(s, intent).effects| == 1 && Perform(s, intent).effects[0].Emit?
  {
  }

  /** Call intents carry the status their name says: ringing for start,
      ended for end. */
  lemma CallIntentStatuses(s: Service, intent: Intent)
    requires intent.StartCallIntent? || intent.EndCallIntent?
    ensures forall e :: e in Perform(s, intent).effects ==>
      e.Emit? && e.payload.CallPayload?
      && e.payload.status == (if intent.StartCallIntent? then Ringing else Ended)
      && e.payload.receiverId == intent.receiverId && e.payload.groupId == intent.groupId
  {
  }
}

=== FILE: use_chat.dfy ===
/** The `useChat` hook (src/customHooks/useChat.ts): turns the active chat
    into history requests, outgoing messages, typing flags and calls, each
    addressed to exactly one of the peer or the group. */
module UseChat {
  import opened Common
  import opened ChatTypes
  import opened UserTypes
  import ChatSlice
  import opened SocketService

  /** The message `sendMessage` builds. `id` and `createdAt` stand for
      `Date.now()` and the ISO time stamp, which come from the clock. */
  function BuildMessage(user: User, chat: ActiveChat, content: string, kind: MessageKind,
                        fileUrl: Option<string>, id: string, createdAt: string): (m: Message)
    ensures m.sender == Sender(user.id, user.email)
    ensures m.content == content && m.kind == kind && m.fileUrl == fileUrl
    ensures m.id == id && m.createdAt == createdAt
    ensures AddressedTo(m.receiver, m.group, chat)
  {
    var base := Message(id, Sender(user.id, user.email), None, None, content, kind, fileUrl, createdAt);
    if chat.kind == Private then base.(receiver := Some(chat.id)) else base.(group := Some(chat.id))
  }

  /** `sendMessage(content, type, fileUrl)`; the hook's `type` is "text" or
      "file". Nothing happens without a current user and an active chat.
      The hook's default `type = "text"` has no counterpart here: its one
      caller, the chat window's submit, passes `Text` explicitly. Only the
      message list changes. */
  function SendChatMessage(s: Service, currentUser: Option<User>, chat: Option<ActiveChat>,
                           content: string, kind: MessageKind, fileUrl: Option<string>,
                           id: string, createdAt: string): (r: Step)
    requires kind != Call
    ensures currentUser.None? || chat.None? || s.socket.None? ==> r == Step(s, [])
    ensures currentUser.Some? && chat.Some? && s.socket.Some? ==>
      && r.service == s.(chat := r.service.chat)
      && ChatSlice.OnlyChanges(s.chat, r.service.chat, {ChatSlice.MessagesField})
      && |r.service.chat.messages| == |s.chat.messages| + 1
      && r.service.chat.messages[..|s.chat.messages|] == s.chat.messages
      && var m := r.service.chat.messages[|s.chat.messages|];
         && m.sender == Sender(currentUser.value.id, currentUser.value.email)
         && m.content == content && m.kind == kind && m.fileUrl == fileUrl
         && AddressedTo(m.receiver, m.group, chat.value)
         && r.effects == [Emit(SendMessagePayload(content, m.receiver, m.group, kind, fileUrl))]
  {
    if currentUser.None? || chat.None? then Step(s, [])
    else SendMessage(s, BuildMessage(currentUser.value, chat.value, content, kind, fileUrl, id, createdAt))
  }

  /** A message sent through the hook is listed exactly once even when the
      server echoes it back: the local append is the only one, because the
      echo carries the current user as sender. */
  lemma SentMessageListedOnce(s: Service, user: User, chat: ActiveChat, content: string,
                              kind: MessageKind, fileUrl: Option<string>, id: string,
                              createdAt: string, echo: Message)
    requires kind != Call
    requires s.socket.Some? && s.currentUserId == Some(user.id)
    requires echo.sender.id == user.id
    ensures var sent := SendChatMessage(s, Some(user), Some(chat), content, kind, fileUrl, id, createdAt);
      Deliver(sent.service, NewMessage(echo)).service.chat.messages
        == s.chat.messages + [BuildMessage(user, chat, content, kind, fileUrl, id, createdAt)]
  {
  }

  /** The history-loading effect that runs whenever the active chat changes. */
  function LoadHistory(s: Service, chat: Option<ActiveChat>): (r: Step)
    ensures r.service == s
    ensures r.effects != [] <==> chat.Some? && IsConnected(s)
    ensures |r.effects| == (if chat.Some? && IsConnected(s) then 1 else 0)
    ensures forall e :: e in r.effects ==>
      e.Emit? && e.payload.LoadMessagesPayload? && AddressedTo(e.payload.receiverId, e.payload.groupId, chat.value)
  {
    match chat
    case None => Step(s, [])
    case Some(c) =>
      if c.kind == Private then LoadMessages(s, Some(c.id), None)
      else LoadMessages(s, None, Some(c.id))
  }

  /** `setTyping`: reports the flag for the active chat, if there is one. */
  function SetTyping(s: Service, chat: Option<ActiveChat>, isTyping: bool): (r: Step)
    ensures r.service == s
    ensures r.effects != [] <==> chat.Some? && IsConnected(s)
    ensures |r.effects| == (if chat.Some? && IsConnected(s) then 1 else 0)
    ensures forall e :: e in r.effects ==> e == Emit(TypingPayload(isTyping, chat.value.id))
  {
    match chat
    case None => Step(s, [])
    case Some(c) => SendTypingStatus(s, isTyping, c.id)
  }

  /** `startCall`: rings the peer of a private chat or the group of a group
      chat, never both. */
  function StartChatCall(s: Service, chat: Option<ActiveChat>, kind: CallKind): (r: Step)
    ensures r.service == s
    ensures r.effects != [] <==> chat.Some? && IsConnected(s)
    ensures |r.effects| == (if chat.Some? && IsConnected(s) then 1 else 0)
    ensures forall e :: e in r.effects ==>
      && e.Emit? && e.payload.CallPayload? && e.payload.status == Ringing && e.payload.kind == kind
      && AddressedTo(e.payload.receiverId, e.payload.groupId, chat.value)
  {
    match chat
    case None => Step(s, [])
    case Some(c) =>
      StartCall(s, if c.kind == Private then Some(c.id) else None,
                   if c.kind == Group then Some(c.id) else None, kind)
  }
}

=== FILE: user_types.dfy ===
/** The user records the auth store and the auth service exchange with the
    server (src/types/user.ts). */
module UserTypes {
  import opened Common

  /** `User`; the optional `createdAt`/`updatedAt` dates are not modelled. */
  datatype User = User(
    id: string,
    name: string,
    email: string,
    gender: Option<string>,
    profileImage: Option<string>)

  /** The body of an update-user response: whichever user fields the server
      chose to send back (`None` for a field the body does not carry). */
  datatype UserPatch = UserPatch(
    id: Option<string>,
    name: Option<string>,
    email: Option<string>,
    gender: Option<string>,
    profileImage: Option<string>)

  /** `AuthResponse`. */
  datatype AuthResponse = AuthResponse(
    user: User,
    accessToken: string,
    token: string,
    refreshToken: string)
}
